=== FILE: README.md ===
# AutoTOC tree synchronisation, modelled in Dafny

The AutoTOC plugin keeps a table of contents of a vault as a flat node
repository. The repository is a record from slash-separated ids to nodes. A
node is either a document (`File`: id, name, link) or a folder (`Dir`: id,
name, an ordered list of child ids, an `expanded` flag). Folders refer to
their children only by id. Three entry points in `utils.ts` keep the
repository in step with the vault:

- `deleteFromNodes(path, nodes, origin)` removes a node and its first
  reference in the parent's list. It then prunes every ancestor that this
  left empty, walking upward until it meets a non-empty parent or the
  origin.
- `updateNodes(path, payload, nodes)` inserts or updates a node. It creates
  missing ancestors as empty, expanded folders. A new document goes in
  front of the parent's first folder entry, and a new folder is appended.
  A folder listing for an existing folder is prepended to its list. One
  document node is registered per listed page.
- `handleRename(oldPath, newPath, nodes, skipUpdateParent)` re-keys a node
  and, recursively, everything it lists. Unless told to skip it, it also
  rewrites the reference in the old parent's list at the same position.

The project is laid out as follows:

- `types.dfy` holds the data model of `types.ts`: `Node` is a tagged union,
  and `NodesById` and `AppData` are maps.
- `paths.dfy` holds the inline `split("/")`, `pop()` and `join("/")`
  arithmetic as named functions with their inverse lemmas.
- `utils.dfy` gives each entry point twice:
  - as a function on repository values (`Delete`, `Update`, `Rename`);
  - as a method of the class `Repository`, whose `nodes` field the method
    updates loop by loop, as the source mutates its record.

  Each method is proved to compute exactly its function.
- `delete_properties.dfy`, `ancestors.dfy`, `update_properties.dfy` and
  `rename_properties.dfy` prove properties of the three operations: their
  frames, their effect on the parent's list, and round trips.
- `invariants.dfy` defines four consistency conditions on a repository:
  ids match keys, every reference resolves, every child is listed by its
  parent id, and no list repeats an id. They are preserved as follows:
  - a delete keeps all four;
  - an update keeps resolvable references and matching ids;
  - a rename of a non-root node keeps resolvable references, matching ids
    and repeat-free lists when neither path lies below the other and no
    key lies at or below the new path. It keeps parent links only when the
    node stays in its folder.

A JavaScript `TypeError` becomes an `Err` result. It is `MissingNode(id)`
when `undefined` is dereferenced, and `NotADirectory(id)` when a document
is asked for its `items`.

The model follows the code in these places, which are easy to misread:

- A new document's position is found by dereferencing the parent's entries
  only up to the first folder entry (`findIndex` stops there). So only those
  entries must resolve, not every entry.
- The new node is spliced into its parent before it is stored, not after.
- The top-level placeholder folder created for a deep path is not linked
  into the origin, because the `reduce` accumulator is still `null` there.
- A rename that moves a node to another folder rewrites the reference in
  the old parent to the new id. It does not link the node into the new
  parent.
- Child ids are built in two different ways:
  - The ancestor walk of `updateNodes` omits the separator under the empty
    id (`ChildId`).
  - A rename always joins with `/`, so the children of a node renamed to
    `""` move to `"/" + name` (`RenamedChildIdParts`).

## Model

| member | source | states |
|---|---|---|
| Paths.Split | utils.ts:9-11 | `split("/")` yields at least one piece, no piece contains the separator, and joining the pieces gives the path back |
| Paths.ParentId | utils.ts:9-11 | a one-segment path has the empty id as parent; a parent id is strictly shorter than a non-empty path; a path with a separator is its parent id, `/`, and its last segment |
| Paths.LastSegment | utils.ts:43 | the popped segment contains no separator; a one-segment path is its own last segment |
| Paths.SplitJoin | utils.ts:42-46 | splitting the join of separator-free segments gives the segments back |
| Paths.SplitAppend | utils.ts:42-46 | appending `/seg` to a path appends `seg` to its split |
| Paths.ParentOfJoined | utils.ts:9-11 | `ParentId` and `LastSegment` take `p + "/" + seg` apart into `p` and `seg` |
| Paths.ChildIdInverse | utils.ts:48-50 | the id the ancestor walk builds (no separator under the falsy accumulator) has the accumulator as parent id and the segment as last segment |
| Paths.JoinPairInverse | utils.ts:156-157 | `[newPath, itemName].join("/")` is `newPath + "/" + itemName`, whose parent id is `newPath` and whose last segment is `itemName` |
| Paths.WithinJoined | utils.ts:156-157 | a joined child id lies below its parent id |
| Utils.IndexOf | utils.ts:17 | `findIndex` returns the first position holding the id, or -1 exactly when the id is absent |
| Utils.FirstDirIndex | utils.ts:82-85 | on success: -1 when every entry is a file, otherwise the index of a folder entry with only files before it; on failure: the first unresolved id, with only files before it |
| Utils.FirstDirFrom | utils.ts:83-85 | the same search started at position `k` |
| Utils.PageNode | utils.ts:117-124 | a listed page is registered as exactly the node a document notification for its path would build |
| Utils.Candidate | utils.ts:67-78 | the node built for a notification has the path as id and the popped segment as name; it is a folder exactly when a listing came with it; a document links to its own path; a folder is expanded and lists the pages' paths in listing order |
| Utils.LinkIntoParent | utils.ts:80-106 | the splice fails only for a new node under a present parent, when that parent is a document or when the node is a document, and a new node under a present document always fails with `NotADirectory` of the parent; it never adds or removes a key; it changes nothing when the node exists or the parent is missing; otherwise the parent stays a folder with the same fields and its list gains exactly one copy of the new id |
| Utils.Store | utils.ts:108-114 | storing fails exactly when a listing arrives for a path that holds a document; it adds at most the path as a key; a fresh path holds the candidate; an existing folder keeps every field but its list |
| Utils.RegisterPages | utils.ts:116-128 | registration never drops a key (the full effect is `RegisterPagesFacts`) |
| Utils.Update | utils.ts:37-132 | a successful update keeps every key and leaves a node at `path` |
| Utils.Delete | utils.ts:4-35 | a successful delete leaves only keys that were present, minus `path`, and never removes a present origin other than `path` |
| Utils.EnsureAncestors | utils.ts:48-65 | the ancestor walk only adds keys |
| Utils.PageIds | utils.ts:73-77 | one reference per listed page, in listing order, each the page's path |
| Utils.Rename | utils.ts:134-220 | a rename never grows the repository (the measure that makes the recursion terminate); where it moves each node, at every depth, is stated by `RenameMovesSubtree` and `RenameMovesDescendants` |
| Utils.RenameChild | utils.ts:154-174 | one child step never grows the repository |
| Utils.RenameChildren | utils.ts:152-177 | the children loop never grows the repository |
| Utils.Repository.DeleteFromNodes | utils.ts:4-35 | the in-place delete returns exactly `Delete` of the old record and, on success, leaves the record equal to it |
| Utils.Repository.UpdateNodes | utils.ts:37-132 | the in-place update (ancestor loop, splice, store, page loop) returns exactly `Update` of the old record and, on success, leaves the record equal to it |
| Utils.Repository.CreateAncestors | utils.ts:48-65 | the in-place ancestor loop returns exactly `EnsureAncestors` of the old record and, on success, leaves the record equal to it |
| Utils.Repository.LinkNewNode | utils.ts:80-106 | the in-place splice returns exactly `LinkIntoParent` of the old record and, on success, leaves the record equal to it |
| Utils.Repository.StoreNode | utils.ts:108-114 | the in-place store or merge returns exactly `Store` of the old record and, on success, leaves the record equal to it |
| Utils.Repository.RegisterListedPages | utils.ts:116-128 | the page loop leaves the record equal to `RegisterPages` of the old record |
| Utils.Repository.ReplaceParentReference | utils.ts:190-217 | the in-place parent step returns exactly `ReplaceInParent` of the old record and, on success, leaves the record equal to it |
| Utils.RenamedChildId | utils.ts:156-157 | a moved child's id lies strictly below the new path: the new path, a separator, then more |
| Utils.Rekeyed | utils.ts:179-185 | the re-keyed node keeps its kind and, given one child id per old child built by `RenamedChildId`, is `existing` moved to the new path (`RekeyedFrom`) |
| Utils.ReplaceInParent | utils.ts:190-217 | the parent step fails exactly when the old parent is missing; it never adds or removes a key and changes no node but the parent; a folder parent keeps every field and the length of its list |
| Utils.Repository.HandleRename | utils.ts:134-220 | the in-place rename (children loop with recursive calls) returns exactly `Rename` of the old record and, on success, leaves the record equal to the new repository |
| DeleteProperties.RemoveFirstCount | utils.ts:17-23 | removing the first occurrence takes exactly one copy of the id out of the multiset, when there is one |
| DeleteProperties.RemoveFirstFacts | utils.ts:17-23 | the remaining entries come from the list; from a list without repeats the id is gone and no repeat appears |
| DeleteProperties.SpliceRemovesFirst | utils.ts:17-23 | the splice around `findIndex` is removal of the first occurrence, and is the identity when the id is absent |
| DeleteProperties.DeleteStep | utils.ts:9-34 | deleting `""` fails; a missing parent fails, a file parent fails, and otherwise the parent loses its first reference and the walk stops exactly when the parent is non-empty or is the origin |
| DeleteProperties.DeleteFrame | utils.ts:25-34 | every node other than `path` and its ancestors is kept unchanged, and every node that changes is an ancestor of `path` |
| DeleteProperties.DeletePreservesWellFormed | utils.ts:4-35 | ids matching keys, resolving references, parent-linked children and repeat-free lists all survive a delete |
| DeleteProperties.DeleteCascadeStopsAtOrigin | utils.ts:25-34 | deleting the only document of a top-level folder prunes the folder and stops at the origin `""`, which stays with an empty list |
| Ancestors.ChainStep | utils.ts:48-65 | the walk's id after segment `i` is the join of the first `i + 1` segments, and grows along the walk |
| Ancestors.EnsureAncestorsNoop | utils.ts:48-65 | when every strict ancestor exists, the walk changes nothing |
| Ancestors.WalkCreated | utils.ts:51-58 | a missing ancestor becomes an expanded folder named after its segment, listing the next ancestor only when that one was missing too |
| Ancestors.WalkExisting | utils.ts:51-61 | an ancestor that existed is kept, or gains the next ancestor at the end of its list when that one was missing |
| Ancestors.EnsureAncestorsCreates | utils.ts:48-65 | after the walk every strict ancestor exists; nodes that are not ancestors are unchanged, so the origin is not linked; created ancestors are expanded folders with the right id and name; each created ancestor below the top is listed by the one above; an existing ancestor whose successor existed is unchanged |
| UpdateProperties.RegisterPagesFacts | utils.ts:116-128 | registration adds exactly the listed paths, leaves other nodes alone, stores a file linking to itself at every listed path, and the last page listed under a path wins |
| UpdateProperties.InsertDocumentOrdering | utils.ts:80-99 | a new document fails exactly on an unresolved entry before the first folder; when all entries resolve it succeeds; on success it is spliced right before the first folder entry (or at the end) and stored as a file |
| UpdateProperties.InsertDirectoryAppends | utils.ts:80-128 | a new folder always succeeds, adds exactly itself and the listed paths as keys, is appended to its parent's list, and is stored with the listing's ids, expanded |
| UpdateProperties.InsertDirectoryRegisters | utils.ts:80-128 | inserting a new folder leaves every node other than the parent, the folder and the listed pages alone, and gives each listed page its file node |
| UpdateProperties.DocumentOverExisting | utils.ts:108-114 | a document notification for an existing path changes nothing |
| UpdateProperties.MergeListing | utils.ts:108-128 | a listing for an existing folder prepends the listing's ids, in order and without removing repeats, keeps the folder's other fields, and registers the pages |
| UpdateProperties.ListingOverFile | utils.ts:108-111 | a listing for an existing document fails, because a document has no list |
| UpdateProperties.NewUnderFile | utils.ts:80-106 | with every strict ancestor present, a notification for a new path whose parent is a document fails with `NotADirectory` of the parent, whether the new node is a document or a folder |
| UpdateProperties.WalkKeepsResolved | utils.ts:48-65 | the ancestor walk keeps every reference resolvable |
| UpdateProperties.WalkKeepsIds | utils.ts:48-65 | the ancestor walk keeps every node stored under its own id |
| UpdateProperties.UpdatePreservesNoDangling | utils.ts:37-132 | after a successful update every reference resolves again |
| UpdateProperties.UpdatePreservesIds | utils.ts:37-132 | after a successful update every node is still stored under its own id: created ancestors, the candidate, a merged folder and each page node all carry their key as id |
| UpdateProperties.LinkLeavesOnePending | utils.ts:80-106 | the splice leaves at most the new id unresolved |
| UpdateProperties.StoreLeavesPagesPending | utils.ts:108-114 | storing the node leaves at most the listed pages unresolved |
| UpdateProperties.RegisterPagesResolves | utils.ts:116-128 | registering the pages resolves every reference to them |
| UpdateProperties.RegisterPagesKeepIds | utils.ts:116-128 | registering the pages keeps every node stored under its own id |
| UpdateProperties.InsertThenDelete | utils.ts:4-132 | inserting a document under existing ancestors and deleting it again gives the repository back, when the parent is not pruned |
| UpdateProperties.InsertUnderPlaceholder | utils.ts:48-113 | a document under a missing top-level folder creates that folder listing only the document |
| UpdateProperties.InsertPlaceholderThenDelete | utils.ts:4-132 | inserting a document under a missing top-level folder and deleting it prunes the placeholder and gives the repository back |
| UpdateProperties.InsertDocumentBeforeSubdirectory | utils.ts:80-99 | a new document in a folder whose only entry is a subfolder goes in front of it |
| RenameProperties.ReplaceFirstCount | utils.ts:205-214 | replacing the first occurrence keeps the length, trades one copy of the old id for the new one, and changes nothing when the old id is absent |
| RenameProperties.IndexedWriteReplacesFirst | utils.ts:197-214 | the splice at `findIndex` is replacement of the first occurrence |
| RenameProperties.ReplaceInParentFacts | utils.ts:190-217 | a missing old parent fails; a document parent is left alone; a folder parent has its first reference replaced in place, and nothing else changes |
| RenameProperties.RenameChildrenIds | utils.ts:152-177 | the new child list has one id per old child, in order: the new path joined with the child's last segment |
| RenameProperties.RenamedChildIdParts | utils.ts:156-157 | a moved child's parent id is the new path and it keeps its last segment; under `""` it becomes `"/" + segment` |
| RenameProperties.RenameShape | utils.ts:147-187 | a missing node fails; the returned node keeps its kind and `expanded` flag, gets the new id, name and link, and lists the moved children; it is stored at the new path unless the parent step overwrote it |
| RenameProperties.RenameToSelf | utils.ts:134-220 | renaming a non-root node to its own path, in a canonical repository whose references resolve, returns the node unchanged and leaves the whole repository unchanged |
| RenameProperties.RenameFrameSkip | utils.ts:147-187 | a rename without the parent step changes only ids below the old and the new path, and keeps the repository parent-linked |
| RenameProperties.RenameKeepsOthers | utils.ts:134-220 | a rename changes only ids below the old path, ids below the new path and, unless the step is skipped, the old parent; it keeps the repository parent-linked when the step is skipped or the node stays in its folder |
| RenameProperties.RenameMovesSubtree | utils.ts:147-187 | for a rename of a non-root node in a parent-linked, repeat-free repository, where the new path neither contains nor lies below the old one and no key lies at or below the new path: the old id is gone, the new id is present, every id below the new path is a node with that id whose children lie below it too, and each child `c` of the renamed folder is gone and reappears at `RenamedChildId(n, c)` re-keyed from its old node |
| RenameProperties.RenameMovesDescendants | utils.ts:147-187 | under the same conditions, when every node below the old path `o` is listed by its parent: every key `k` at or below `o`, at any depth, is gone, and `n + k[|o|..]` holds its re-keyed copy (the recursive calls move each subtree under the new id of its root) |
| RenameProperties.RenamePreservesWellFormed | utils.ts:134-220 | for a rename of a non-root node in a well-formed repository, under the same side conditions on the paths, the rename keeps every reference resolvable, every id equal to its key and every list free of repeats; when the node stays in its folder the result is well-formed |
| RenameProperties.RenameIntoOwnSubfolder | utils.ts:152-187 | renaming a top-level folder `a` holding a document `a/f` and a subfolder `a/d` (which holds `a/d/f`) to `a/d` succeeds but leaves `a/d` listing `a/d/f`, which is no longer a key |
| RenameProperties.RelinkKeepsParentLinked | utils.ts:205-214 | writing the new id into the list of its own parent keeps the repository parent-linked |

## Left out

- `console.log` diagnostics are not modelled. The lookup inside the last one (utils.ts:216) is kept, because it throws when the old parent is missing.
- store.ts (Svelte stores) is not part of this model: it holds no logic.
- The payload's `TAbstractFile` and `rows.values` shape is reduced to `Option<seq<Page>>`, with `Page(path, name)`; `None` stands for a document.
- The `NodeType` enum of types.ts is not modelled. The code branches on an `isDir` flag, which the model reads as "is the `Dir` variant".
- The candidate node carries fields a document does not have (`expanded`, an undefined `items`). They are dropped, because the `File` variant has no such fields.
- JavaScript aliasing is not modelled. The model uses value semantics for the `{ ...newNodes }` copy and for the caller's record that `handleRename` mutates.
- The state after an error is not modelled. On a throw the source leaves the record partly mutated; the model returns only the failure.
- The host's event subscription and the plugin lifecycle are not in the modelled files.
- Paths with a leading `/` are excluded by the `updateNodes` lemmas, which assume `NoLeadingSep`. The functions and methods themselves take any string.
- Utils.EnsureAncestors: no lemma says which failure the ancestor walk raises. Only `Update`'s result carries it.
- UpdateProperties.InsertPlaceholderThenDelete: proved for one top-level placeholder only. With deeper chains, pruning can also remove a pre-existing empty folder the chain hangs from, so the inverse needs a side condition that is not stated.
- UpdateProperties.UpdatePreservesNoDangling: only resolvable references, and with `UpdatePreservesIds` matching ids, are shown to survive an update. Parent links and repeat-free lists are not, because a listing may repeat ids or name pages outside the folder.
- RenameProperties.RenameKeepsOthers: it states the frame and parent links only. Resolvable references, ids and repeat-free lists are shown by `RenamePreservesWellFormed` under its side conditions.
- RenameProperties.RenameMovesDescendants: proved only when every node below the old path is listed by its parent (`Connected`). The code moves only what it reaches through the lists, so a node below the old path that no list reaches stays under its old id.
- RenameProperties.RenamePreservesWellFormed: proved only when the new path neither contains nor lies below the old one and nothing lies below the new path yet. Without the first, a reference can dangle, as `RenameIntoOwnSubfolder` shows: in `{"": [a], a: [a/f, a/d], a/f, a/d: [a/d/f], a/d/f}`, renaming `a` to `a/d` leaves `a/d` listing the missing `a/d/f`. Without the second, the old parent can list `n` twice: renaming `o` onto an existing sibling `n` writes `n` where `o` was, beside the entry `n` already had. Parent links survive only when the node stays in its folder, because a rename does not link the node into a new parent.
- The record is modelled as a `map`, which has no inherited members. A plain JavaScript object also finds members of `Object.prototype`, so `!nodes["constructor"]` is false at utils.ts:51. A top-level folder named `constructor` is then never created, and utils.ts:82-83 throws on its `items`. The model creates such a folder like any other.
- RenameProperties.RenameToSelf: the root `""` is excluded, because its children would move to `"/" + name`.

=== FILE: ancestors.dfy ===
/** The ancestor walk of `updateNodes`: which ids the `reduce` visits, that
    it is a no-op when they all exist, and what it creates otherwise. */
module Ancestors {
  import opened Wrappers
  import opened Types
  import opened Paths
  import opened Utils

  /** `path` does not start with a separator, so its first segment is not
      empty. */
  predicate NoLeadingSep(path: string)
  {
    Split(path)[0] != ""
  }

  /** The id of the strict ancestor of `path` made of its first `i`
      segments. */
  function AncestorAt(path: string, i: nat): string
    requires 1 <= i <= |Split(path)|
  {
    Join(Split(path)[..i])
  }

  /** Every strict ancestor of `path` is a key of `m`. */
  ghost predicate AncestorsPresent(path: string, m: NodesById)
  {
    forall i :: 1 <= i < |Split(path)| ==> AncestorAt(path, i) in m
  }

  /** The accumulator of the `reduce` before segment `i`. */
  function Acc(parts: seq<string>, i: nat): string
    requires i <= |parts|
  {
    if i == 0 then "" else Join(parts[..i])
  }

  ghost predicate SeparatorFree(parts: seq<string>)
  {
    forall i :: 0 <= i < |parts| ==> Sep !in parts[i]
  }

  // ---------------------------------------------------------------------
  // The ids of the walk

  /** Joining two non-empty runs of parts puts one separator between them. */
  lemma {:induction false} JoinConcat(a: seq<string>, b: seq<string>)
    requires a != [] && b != []
    ensures Join(a + b) == Join(a) + [Sep] + Join(b)
  {
    if |a| > 1 {
      JoinConcat(a[1..], b);
      assert (a + b)[1..] == a[1..] + b;
    } else {
      assert (a + b)[1..] == b;
    }
  }

  /** The walk's `i + 1`-st id is the join of the first `i + 1` segments,
      and it grows strictly longer from one id to the next. */
  lemma ChainStep(parts: seq<string>, i: nat)
    requires SeparatorFree(parts) && |parts| >= 1 && parts[0] != ""
    requires i < |parts|
    ensures ChildId(Acc(parts, i), parts[i]) == Join(parts[..i + 1])
    ensures |Join(parts[..i + 1])| > |Acc(parts, i)|
    ensures Join(parts[..i + 1]) != ""
  {
    if i == 0 {
      assert parts[..1] == [parts[0]];
    } else {
      var a := parts[..i];
      assert parts[..i + 1] == a + [parts[i]];
      JoinConcat(a, [parts[i]]);
      assert Join(a) != "" by {
        if |a| > 1 {
          assert Join(a) == a[0] + [Sep] + Join(a[1..]);
        }
      }
    }
  }

  /** Ids further along the walk are longer, hence different. */
  lemma ChainGrows(parts: seq<string>, j: nat, j': nat)
    requires SeparatorFree(parts) && |parts| >= 1 && parts[0] != ""
    requires 1 <= j < j' <= |parts|
    ensures |Join(parts[..j])| < |Join(parts[..j'])|
  {
    assert parts[..j'] == parts[..j] + parts[j..j'];
    JoinConcat(parts[..j], parts[j..j']);
  }

  // ---------------------------------------------------------------------
  // The walk when every ancestor exists

  lemma {:induction false} EnsureAncestorsNoopFrom(parts: seq<string>, i: nat, m: NodesById)
    requires SeparatorFree(parts) && |parts| >= 1 && parts[0] != ""
    requires i <= |parts| - 1
    requires Acc(parts, i) == "" || Acc(parts, i) in m
    requires forall j :: i < j < |parts| ==> Join(parts[..j]) in m
    ensures EnsureAncestors(parts[..|parts| - 1][i..], Acc(parts, i), m) == Ok(m)
    decreases |parts| - i
  {
    var segs := parts[..|parts| - 1];
    if i < |parts| - 1 {
      assert segs[i..][0] == parts[i] && segs[i..][1..] == segs[i + 1..];
      ChainStep(parts, i);
      assert Join(parts[..i + 1]) in m;
      EnsureAncestorsNoopFrom(parts, i + 1, m);
    } else {
      assert segs[i..] == [];
    }
  }

  /** When every strict ancestor already exists the walk changes nothing:
      existing ancestors are left untouched. */
  lemma EnsureAncestorsNoop(path: string, m: NodesById)
    requires NoLeadingSep(path)
    requires AncestorsPresent(path, m)
    ensures EnsureAncestors(Split(path)[..|Split(path)| - 1], "", m) == Ok(m)
  {
    var parts := Split(path);
    assert parts[..|parts| - 1][0..] == parts[..|parts| - 1];
    forall j | 0 < j < |parts| ensures Join(parts[..j]) in m {
      assert AncestorAt(path, j) in m;
    }
    EnsureAncestorsNoopFrom(parts, 0, m);
  }

  // ---------------------------------------------------------------------
  // What the walk creates

  /** The map after the walk has handled segment `i`, when that succeeds. */
  function WalkNext(parts: seq<string>, i: nat, m: NodesById): NodesById
    requires i < |parts|
  {
    var acc := Acc(parts, i);
    var id := ChildId(acc, parts[i]);
    if id in m then m
    else if acc == "" || acc !in m || m[acc].File? then m[id := Dir(id, parts[i], [], true)]
    else m[id := Dir(id, parts[i], [], true)][acc := m[acc].(items := m[acc].items + [id])]
  }

  /** One segment of the walk. */
  lemma WalkStep(parts: seq<string>, i: nat, m: NodesById)
    requires SeparatorFree(parts) && |parts| >= 1 && parts[0] != ""
    requires i < |parts| - 1
    requires Acc(parts, i) == "" || Acc(parts, i) in m
    requires EnsureAncestors(parts[..|parts| - 1][i..], Acc(parts, i), m).Ok?
    ensures Acc(parts, i + 1) == Join(parts[..i + 1]) == ChildId(Acc(parts, i), parts[i])
    ensures Acc(parts, i + 1) in WalkNext(parts, i, m)
    ensures Acc(parts, i + 1) !in m && Acc(parts, i) != "" ==> m[Acc(parts, i)].Dir?
    ensures EnsureAncestors(parts[..|parts| - 1][i..], Acc(parts, i), m)
            == EnsureAncestors(parts[..|parts| - 1][i + 1..], Acc(parts, i + 1), WalkNext(parts, i, m))
  {
    var segs := parts[..|parts| - 1];
    assert segs[i..][0] == parts[i] && segs[i..][1..] == segs[i + 1..];
    ChainStep(parts, i);
  }

  /** The walk's later ids all differ from the accumulator and the id it
      handles now. */
  lemma WalkIdsDiffer(parts: seq<string>, i: nat, j: nat)
    requires SeparatorFree(parts) && |parts| >= 1 && parts[0] != ""
    requires i < |parts| - 1 && i + 1 < j < |parts|
    ensures Join(parts[..j]) != Acc(parts, i) && Join(parts[..j]) != Acc(parts, i + 1)
  {
    ChainStep(parts, i);
    ChainGrows(parts, i + 1, j);
  }

  /** Every id of the walk is present afterwards. */
  lemma {:induction false} WalkPresent(parts: seq<string>, i: nat, m: NodesById)
    requires SeparatorFree(parts) && |parts| >= 1 && parts[0] != ""
    requires i <= |parts| - 1
    requires Acc(parts, i) == "" || Acc(parts, i) in m
    requires EnsureAncestors(parts[..|parts| - 1][i..], Acc(parts, i), m).Ok?
    ensures var r := EnsureAncestors(parts[..|parts| - 1][i..], Acc(parts, i), m).value;
            forall j :: i < j < |parts| ==> Join(parts[..j]) in r
    decreases |parts| - i
  {
    if i < |parts| - 1 {
      WalkStep(parts, i, m);
      WalkPresent(parts, i + 1, WalkNext(parts, i, m));
    }
  }

  /** A node whose id is neither the accumulator nor a later id of the walk
      is kept. */
  lemma {:induction false} WalkFrame(parts: seq<string>, i: nat, m: NodesById, k: string)
    requires SeparatorFree(parts) && |parts| >= 1 && parts[0] != ""
    requires i <= |parts| - 1
    requires Acc(parts, i) == "" || Acc(parts, i) in m
    requires EnsureAncestors(parts[..|parts| - 1][i..], Acc(parts, i), m).Ok?
    requires k in m && (k != Acc(parts, i) || Acc(parts, i) == "")
    requires forall j :: i < j < |parts| ==> k != Join(parts[..j])
    ensures var r := EnsureAncestors(parts[..|parts| - 1][i..], Acc(parts, i), m).value;
            k in r && r[k] == m[k]
    decreases |parts| - i
  {
    if i < |parts| - 1 {
      WalkStep(parts, i, m);
      WalkFrame(parts, i + 1, WalkNext(parts, i, m), k);
    }
  }

  /** The accumulator's node is kept, or lists the id handled next when
      that id was missing. */
  lemma {:induction false} WalkAcc(parts: seq<string>, i: nat, m: NodesById)
    requires SeparatorFree(parts) && |parts| >= 1 && parts[0] != ""
    requires i <= |parts| - 1
    requires Acc(parts, i) != "" && Acc(parts, i) in m
    requires EnsureAncestors(parts[..|parts| - 1][i..], Acc(parts, i), m).Ok?
    ensures var r := EnsureAncestors(parts[..|parts| - 1][i..], Acc(parts, i), m).value;
            if i + 1 < |parts| && Join(parts[..i + 1]) !in m
            then m[Acc(parts, i)].Dir? &&
                 r[Acc(parts, i)] == m[Acc(parts, i)].(items := m[Acc(parts, i)].items + [Join(parts[..i + 1])])
            else r[Acc(parts, i)] == m[Acc(parts, i)]
  {
    if i < |parts| - 1 {
      WalkStep(parts, i, m);
      var m' := WalkNext(parts, i, m);
      forall j | i + 1 < j < |parts| ensures Acc(parts, i) != Join(parts[..j]) {
        WalkIdsDiffer(parts, i, j);
      }
      WalkFrame(parts, i + 1, m', Acc(parts, i));
    } else {
      assert parts[..|parts| - 1][i..] == [];
    }
  }

  /** A walk id that was missing becomes an expanded directory named after
      its segment, listing the next id when that one was missing too. */
  lemma {:induction false} WalkCreated(parts: seq<string>, i: nat, m: NodesById, j: nat)
    requires SeparatorFree(parts) && |parts| >= 1 && parts[0] != ""
    requires i <= |parts| - 1
    requires Acc(parts, i) == "" || Acc(parts, i) in m
    requires EnsureAncestors(parts[..|parts| - 1][i..], Acc(parts, i), m).Ok?
    requires i < j < |parts| && Join(parts[..j]) !in m
    ensures var r := EnsureAncestors(parts[..|parts| - 1][i..], Acc(parts, i), m).value;
            Join(parts[..j]) in r &&
            r[Join(parts[..j])]
            == Dir(Join(parts[..j]), parts[j - 1],
                   if j + 1 < |parts| && Join(parts[..j + 1]) !in m then [Join(parts[..j + 1])] else [], true)
    decreases |parts| - i
  {
    WalkStep(parts, i, m);
    var m' := WalkNext(parts, i, m);
    if j == i + 1 {
      if j < |parts| - 1 {
        WalkAcc(parts, j, m');
        ChainStep(parts, j);
        assert Join(parts[..j + 1]) in m' <==> Join(parts[..j + 1]) in m by {
          WalkIdsDiffer(parts, i, j + 1);
        }
      } else {
        assert parts[..|parts| - 1][j..] == [];
      }
    } else {
      WalkIdsDiffer(parts, i, j);
      if j + 1 < |parts| {
        WalkIdsDiffer(parts, i, j + 1);
      }
      WalkCreated(parts, i + 1, m', j);
    }
  }

  /** A walk id that was present keeps its node, or lists the next id when
      that one was missing. */
  lemma {:induction false} WalkExisting(parts: seq<string>, i: nat, m: NodesById, j: nat)
    requires SeparatorFree(parts) && |parts| >= 1 && parts[0] != ""
    requires i <= |parts| - 1
    requires Acc(parts, i) == "" || Acc(parts, i) in m
    requires EnsureAncestors(parts[..|parts| - 1][i..], Acc(parts, i), m).Ok?
    requires i < j < |parts| && Join(parts[..j]) in m
    ensures var r := EnsureAncestors(parts[..|parts| - 1][i..], Acc(parts, i), m).value;
            if j + 1 < |parts| && Join(parts[..j + 1]) !in m
            then m[Join(parts[..j])].Dir? &&
                 r[Join(parts[..j])] == m[Join(parts[..j])].(items := m[Join(parts[..j])].items + [Join(parts[..j + 1])])
            else r[Join(parts[..j])] == m[Join(parts[..j])]
    decreases |parts| - i
  {
    WalkStep(parts, i, m);
    var m' := WalkNext(parts, i, m);
    if j == i + 1 {
      assert m' == m;
      WalkAcc(parts, j, m);
    } else {
      WalkIdsDiffer(parts, i, j);
      if j + 1 < |parts| {
        WalkIdsDiffer(parts, i, j + 1);
      }
      WalkExisting(parts, i + 1, m', j);
    }
  }

  /** The whole walk over the strict ancestors of `path`: afterwards every
      strict ancestor exists; one that was missing is an expanded directory
      named after its segment and, unless it is the top-level one, is listed
      by the ancestor above it; an ancestor that existed is kept, except
      that it lists the next one when that one was missing; every other
      node is kept, so the top-level ancestor is never linked into the
      origin. */
  lemma EnsureAncestorsCreates(path: string, m: NodesById)
    requires NoLeadingSep(path)
    requires EnsureAncestors(Split(path)[..|Split(path)| - 1], "", m).Ok?
    ensures var r := EnsureAncestors(Split(path)[..|Split(path)| - 1], "", m).value;
            AncestorsPresent(path, r)
    ensures var r := EnsureAncestors(Split(path)[..|Split(path)| - 1], "", m).value;
            forall k :: k in m && (forall i :: 1 <= i < |Split(path)| ==> k != AncestorAt(path, i)) ==> r[k] == m[k]
    ensures var r := EnsureAncestors(Split(path)[..|Split(path)| - 1], "", m).value;
            forall i :: 1 <= i < |Split(path)| && AncestorAt(path, i) !in m ==>
              && r[AncestorAt(path, i)].Dir?
              && r[AncestorAt(path, i)].id == AncestorAt(path, i)
              && r[AncestorAt(path, i)].name == Split(path)[i - 1]
              && r[AncestorAt(path, i)].expanded
    ensures var r := EnsureAncestors(Split(path)[..|Split(path)| - 1], "", m).value;
            forall i :: 1 < i < |Split(path)| && AncestorAt(path, i) !in m ==>
              r[AncestorAt(path, i - 1)].Dir? && AncestorAt(path, i) in r[AncestorAt(path, i - 1)].items
    ensures var r := EnsureAncestors(Split(path)[..|Split(path)| - 1], "", m).value;
            forall i :: 1 <= i < |Split(path)| && AncestorAt(path, i) in m &&
                        (i + 1 == |Split(path)| || AncestorAt(path, i + 1) in m) ==>
              r[AncestorAt(path, i)] == m[AncestorAt(path, i)]
  {
    var parts := Split(path);
    var segs := parts[..|parts| - 1];
    assert segs[0..] == segs;
    assert Acc(parts, 0) == "";
    var r := EnsureAncestors(segs, "", m).value;
    WalkPresent(parts, 0, m);
    forall i | 1 <= i < |parts| ensures AncestorAt(path, i) in r {
      assert AncestorAt(path, i) == Join(parts[..i]);
    }
    forall k | k in m && (forall i :: 1 <= i < |parts| ==> k != AncestorAt(path, i)) ensures r[k] == m[k] {
      forall j | 0 < j < |parts| ensures k != Join(parts[..j]) {
        assert k != AncestorAt(path, j);
      }
      WalkFrame(parts, 0, m, k);
    }
    forall i | 1 <= i < |parts| && AncestorAt(path, i) !in m
      ensures r[AncestorAt(path, i)].Dir? && r[AncestorAt(path, i)].id == AncestorAt(path, i)
      ensures r[AncestorAt(path, i)].name == parts[i - 1] && r[AncestorAt(path, i)].expanded
    {
      WalkCreated(parts, 0, m, i);
    }
    forall i | 1 < i < |parts| && AncestorAt(path, i) !in m
      ensures r[AncestorAt(path, i - 1)].Dir? && AncestorAt(path, i) in r[AncestorAt(path, i - 1)].items
    {
      assert AncestorAt(path, i) == Join(parts[..i - 1 + 1]);
      if Join(parts[..i - 1]) in m {
        WalkExisting(parts, 0, m, i - 1);
      } else {
        WalkCreated(parts, 0, m, i - 1);
      }
    }
    forall i | 1 <= i < |parts| && AncestorAt(path, i) in m && (i + 1 == |parts| || AncestorAt(path, i + 1) in m)
      ensures r[AncestorAt(path, i)] == m[AncestorAt(path, i)]
    {
      WalkExisting(parts, 0, m, i);
    }
  }
}

=== FILE: delete_properties.dfy ===
/** What `deleteFromNodes` does to a repository: one level of unlinking,
    the frame of the pruning walk, the consistency conditions it keeps, and
    an example of a cascade that stops at the origin. */
module DeleteProperties {
  import opened Wrappers
  import opened Types
  import opened Paths
  import opened Invariants
  import opened Utils

  /** Reference definition: `s` without the first occurrence of `x`. */
  function RemoveFirst(s: seq<string>, x: string): seq<string>
  {
    if s == [] then []
    else if s[0] == x then s[1..]
    else [s[0]] + RemoveFirst(s[1..], x)
  }

  /** Exactly one occurrence of `x` leaves, when there is one, and nothing
      else does. */
  lemma {:induction false} RemoveFirstCount(s: seq<string>, x: string)
    ensures multiset(RemoveFirst(s, x)) == multiset(s) - multiset{x}
  {
    if s != [] {
      assert s == [s[0]] + s[1..];
      if s[0] != x {
        RemoveFirstCount(s[1..], x);
      }
    }
  }

  /** Dropping the head of a list without repeats leaves a list without
      repeats that no longer holds the head. */
  lemma DistinctTail(s: seq<string>)
    requires s != [] && Distinct(s)
    ensures Distinct(s[1..]) && s[0] !in s[1..]
  {
    forall i, j | 0 <= i < j < |s[1..]| ensures s[1..][i] != s[1..][j] {
      assert s[1..][i] == s[i + 1] && s[1..][j] == s[j + 1];
    }
    forall j | 0 <= j < |s[1..]| ensures s[1..][j] != s[0] {
      assert s[1..][j] == s[j + 1];
    }
  }

  /** The entries that remain come from `s`; from a list without repeats,
      `x` is gone entirely and no repeat appears. */
  lemma {:induction false} RemoveFirstFacts(s: seq<string>, x: string)
    ensures forall c :: c in RemoveFirst(s, x) ==> c in s
    ensures Distinct(s) ==> Distinct(RemoveFirst(s, x)) && x !in RemoveFirst(s, x)
  {
    if s != [] {
      if Distinct(s) {
        DistinctTail(s);
      }
      if s[0] != x {
        RemoveFirstFacts(s[1..], x);
        var t := RemoveFirst(s[1..], x);
        if Distinct(s) {
          forall i, j | 0 <= i < j < |[s[0]] + t| ensures ([s[0]] + t)[i] != ([s[0]] + t)[j] {
            assert ([s[0]] + t)[j] == t[j - 1];
            assert t[j - 1] in t;
            if i > 0 {
              assert ([s[0]] + t)[i] == t[i - 1];
            }
          }
        }
      }
    }
  }

  /** The splice `deleteFromNodes` performs, `items` minus the entry at the
      first index of `x` (or all of `items` when there is none), is
      `RemoveFirst`. */
  lemma {:induction false} SpliceRemovesFirst(items: seq<string>, x: string)
    ensures IndexOf(items, x) >= 0 ==>
              items[..IndexOf(items, x)] + items[IndexOf(items, x) + 1..] == RemoveFirst(items, x)
    ensures IndexOf(items, x) < 0 ==> items == RemoveFirst(items, x)
  {
    if items != [] && items[0] != x {
      SpliceRemovesFirst(items[1..], x);
      var t := items[1..];
      var j := IndexOf(t, x);
      if j >= 0 {
        assert IndexOf(items, x) == j + 1;
        assert items[..j + 1] == [items[0]] + t[..j];
        assert items[j + 2..] == t[j + 1..];
        assert items[..j + 1] + items[j + 2..] == [items[0]] + (t[..j] + t[j + 1..]);
      } else {
        assert items == [items[0]] + t;
      }
    }
  }

  /** One level of `deleteFromNodes`: the key goes, the parent must be a
      present directory, its first reference to `path` goes, and the walk
      continues with the parent only when that left it empty and it is not
      the origin. Deleting the empty id always fails: it is its own parent. */
  lemma DeleteStep(path: string, nodes: NodesById, origin: string)
    ensures path == "" ==> Delete(path, nodes, origin) == Err(MissingNode(""))
    ensures var p := ParentId(path);
            var m := nodes - {path};
            && (p !in m ==> Delete(path, nodes, origin) == Err(MissingNode(p)))
            && (p in m && m[p].File? ==> Delete(path, nodes, origin) == Err(NotADirectory(p)))
            && (p in m && m[p].Dir? ==>
                  var m' := m[p := m[p].(items := RemoveFirst(m[p].items, path))];
                  Delete(path, nodes, origin)
                  == if m'[p].items != [] || p == origin then Ok(m') else Delete(p, m', origin))
  {
    var p := ParentId(path);
    var m := nodes - {path};
    if p in m && m[p].Dir? {
      SpliceRemovesFirst(m[p].items, path);
      if IndexOf(m[p].items, path) < 0 {
        assert m[p := m[p].(items := RemoveFirst(m[p].items, path))] == m;
      }
    }
  }

  /** The pruning walk only touches `path` and its ancestors: every other
      node is kept as it was, and every node that differs afterwards is an
      ancestor of `path`. */
  lemma {:induction false} DeleteFrame(path: string, nodes: NodesById, origin: string)
    requires Delete(path, nodes, origin).Ok?
    ensures var r := Delete(path, nodes, origin).value;
            forall k :: k in nodes && k != path && !IsAncestor(k, path) ==> k in r && r[k] == nodes[k]
    ensures var r := Delete(path, nodes, origin).value;
            forall k :: k in r ==> k in nodes && (r[k] == nodes[k] || IsAncestor(k, path))
    decreases |path|
  {
    DeleteStep(path, nodes, origin);
    var p := ParentId(path);
    var m := nodes - {path};
    var m' := m[p := m[p].(items := RemoveFirst(m[p].items, path))];
    assert path != "";
    assert IsAncestor(p, path);
    if !(m'[p].items != [] || p == origin) {
      DeleteFrame(p, m', origin);
    }
  }

  /** The repository stays well formed. The parent is the only directory
      that can list `path`, and lists it at most once, so no reference to a
      removed node remains. */
  lemma {:induction false} DeletePreservesWellFormed(path: string, nodes: NodesById, origin: string)
    requires WellFormed(nodes)
    requires Delete(path, nodes, origin).Ok?
    ensures WellFormed(Delete(path, nodes, origin).value)
    decreases |path|
  {
    DeleteStep(path, nodes, origin);
    var p := ParentId(path);
    var m := nodes - {path};
    var items := m[p].items;
    var m' := m[p := m[p].(items := RemoveFirst(items, path))];
    RemoveFirstFacts(items, path);
    assert NoDangling(m') by {
      forall k, c | k in m' && m'[k].Dir? && c in m'[k].items ensures c in m' {
        if k == p {
          assert c in items && c != path;
        } else {
          assert c in nodes[k].items && ParentId(c) == k;
        }
      }
    }
    assert ParentLinked(m') by {
      forall k, c | k in m' && m'[k].Dir? && c in m'[k].items ensures ParentId(c) == k {
        if k == p {
          assert c in items;
        } else {
          assert c in nodes[k].items;
        }
      }
    }
    assert NoDuplicateRefs(m') by {
      forall k | k in m' && m'[k].Dir? ensures Distinct(m'[k].items) {
        if k != p {
          assert m'[k] == nodes[k];
        }
      }
    }
    assert IdsMatchKeys(m') by {
      forall k | k in m' ensures m'[k].id == k {
        assert m'[k].id == nodes[k].id;
      }
    }
    if !(m'[p].items != [] || p == origin) {
      DeletePreservesWellFormed(p, m', origin);
    }
  }

  /** Example: for any top-level directory `a` holding a single
      document `a/d`: deleting the document prunes `a`, and the walk stops
      at the origin `""`, which stays with an empty listing. */
  lemma DeleteCascadeStopsAtOrigin(a: string, d: string)
    requires a != "" && Sep !in a && Sep !in d
    ensures var doc := a + [Sep] + d;
            var nodes := map["" := Dir("", "", [a], true), a := Dir(a, a, [doc], true), doc := File(doc, d, doc)];
            Delete(doc, nodes, "") == Ok(map["" := Dir("", "", [], true)])
  {
    var doc := a + [Sep] + d;
    var nodes := map["" := Dir("", "", [a], true), a := Dir(a, a, [doc], true), doc := File(doc, d, doc)];
    assert doc != a && doc != "" && a != "";
    ParentOfJoined(a, d);
    DeleteStep(doc, nodes, "");
    var m1 := (nodes - {doc})[a := Dir(a, a, [], true)];
    assert RemoveFirst([doc], doc) == [];
    assert Delete(doc, nodes, "") == Delete(a, m1, "");
    DeleteStep(a, m1, "");
    assert RemoveFirst([a], a) == [];
    var m2 := (m1 - {a})["" := Dir("", "", [], true)];
    assert m2.Keys == {""};
    assert m2 == map["" := Dir("", "", [], true)];
  }
}

=== FILE: invariants.dfy ===
/** Consistency conditions on a node repository, as the engine's callers
    rely on them: keys agree with ids, every reference resolves, a child is
    referenced only from the directory its id names as parent, and no
    directory lists the same child twice. */
module Invariants {
  import opened Types
  import opened Paths

  /** Every node is stored under its own id. */
  ghost predicate IdsMatchKeys(m: NodesById)
  {
    forall k :: k in m ==> m[k].id == k
  }

  /** Every entry of every directory's `items` is a key of the repository. */
  ghost predicate NoDangling(m: NodesById)
  {
    forall k, c :: k in m && m[k].Dir? && c in m[k].items ==> c in m
  }

  /** Every entry of every directory's `items` is resolved, except possibly
      those in `pending`. */
  ghost predicate NoDanglingExcept(m: NodesById, pending: set<string>)
  {
    forall k, c :: k in m && m[k].Dir? && c in m[k].items ==> c in m || c in pending
  }

  /** A directory only lists ids whose parent id is that directory. */
  ghost predicate ParentLinked(m: NodesById)
  {
    forall k, c :: k in m && m[k].Dir? && c in m[k].items ==> ParentId(c) == k
  }

  /** No entry occurs twice in `s`. */
  ghost predicate Distinct(s: seq<string>)
  {
    forall i, j :: 0 <= i < j < |s| ==> s[i] != s[j]
  }

  /** No directory lists the same id twice. */
  ghost predicate NoDuplicateRefs(m: NodesById)
  {
    forall k :: k in m && m[k].Dir? ==> Distinct(m[k].items)
  }

  ghost predicate WellFormed(m: NodesById)
  {
    IdsMatchKeys(m) && NoDangling(m) && ParentLinked(m) && NoDuplicateRefs(m)
  }
}

=== FILE: paths.dfy ===
/** The path arithmetic the engine performs inline with `split("/")`,
    `pop()` and `join("/")`, factored into named functions. */
module Paths {

  const Sep: char := '/'

  /** `s.split("/")`: the pieces between separators. There is always at least
      one piece, none contains a separator, and joining them gives `s` back. */
  function Split(s: string): (parts: seq<string>)
    ensures |parts| >= 1
    ensures forall i :: 0 <= i < |parts| ==> Sep !in parts[i]
    ensures Join(parts) == s
    decreases |s|
  {
    if s == [] then [""]
    else if s[0] == Sep then
      var rest := Split(s[1..]);
      assert [""] + rest == [""] + [rest[0]] + rest[1..];
      assert s == [Sep] + s[1..];
      [""] + rest
    else
      var rest := Split(s[1..]);
      var first := [s[0]] + rest[0];
      assert Sep !in first;
      assert s == [s[0]] + s[1..];
      if |rest| == 1 then [first]
      else
        assert Join(rest) == rest[0] + [Sep] + Join(rest[1..]);
        assert Join([first] + rest[1..]) == first + [Sep] + Join(([first] + rest[1..])[1..]);
        assert ([first] + rest[1..])[1..] == rest[1..];
        [first] + rest[1..]
  }

  /** `parts.join("/")`. */
  function Join(parts: seq<string>): string
  {
    if |parts| == 0 then ""
    else if |parts| == 1 then parts[0]
    else parts[0] + [Sep] + Join(parts[1..])
  }

  /** Everything but the last segment: `split`, `pop`, `join`. A path of one
      segment has the empty id as parent. */
  function ParentId(path: string): (r: string)
    ensures Sep !in path ==> r == ""
    ensures path != "" ==> |r| < |path|
    ensures Sep in path ==> path == r + [Sep] + LastSegment(path)
  {
    var parts := Split(path);
    JoinLast(parts);
    SeparatorCount(parts);
    Join(parts[..|parts| - 1])
  }

  /** The last segment: `split("/").pop()`. */
  function LastSegment(path: string): (r: string)
    ensures Sep !in r
    ensures Sep !in path ==> r == path
  {
    var parts := Split(path);
    SeparatorCount(parts);
    parts[|parts| - 1]
  }

  /** The id the ancestor walk of `updateNodes` gives the child `seg` of
      `parent`: no separator when the parent is empty (falsy). */
  function ChildId(parent: string, seg: string): string
  {
    if parent == "" then seg else parent + [Sep] + seg
  }

  /** `k` is `p` itself or lies below `p` as a `p + "/"` prefixed path. */
  predicate Within(p: string, k: string)
  {
    k == p || (|k| > |p| && k[..|p|] == p && k[|p|] == Sep)
  }

  /** `a` is reached from `k` by taking `ParentId` one or more times. */
  predicate IsAncestor(a: string, k: string)
    decreases |k|
  {
    k != "" && (ParentId(k) == a || IsAncestor(a, ParentId(k)))
  }

  // ---------------------------------------------------------------------
  // Lemmas about splitting and joining

  lemma {:induction false} JoinLast(parts: seq<string>)
    requires |parts| >= 1
    ensures |parts| >= 2 ==> Join(parts) == Join(parts[..|parts| - 1]) + [Sep] + parts[|parts| - 1]
    ensures |parts| == 1 ==> Join(parts) == parts[0]
  {
    if |parts| >= 3 {
      JoinLast(parts[1..]);
      assert parts[1..][..|parts| - 2] == parts[..|parts| - 1][1..];
    } else if |parts| == 2 {
      assert parts[..1] == [parts[0]];
    }
  }

  /** A separator occurs in a join of separator-free parts exactly when there
      are two or more parts. */
  lemma {:induction false} SeparatorCount(parts: seq<string>)
    requires |parts| >= 1
    requires forall i :: 0 <= i < |parts| ==> Sep !in parts[i]
    ensures (Sep in Join(parts)) <==> |parts| >= 2
  {
    if |parts| >= 2 {
      assert Join(parts)[|parts[0]|] == Sep;
    }
  }

  /** Splitting a separator-free word followed by a separator. */
  lemma {:induction false} SplitWordThen(w: string, t: string)
    requires Sep !in w
    ensures Split(w + [Sep] + t) == [w] + Split(t)
    decreases |w|
  {
    if w == [] {
      assert w + [Sep] + t == [Sep] + t;
      assert ([Sep] + t)[1..] == t;
    } else {
      var s := w + [Sep] + t;
      assert s[1..] == w[1..] + [Sep] + t;
      SplitWordThen(w[1..], t);
      assert [w[0]] + w[1..] == w;
    }
  }

  /** Splitting a separator-free word. */
  lemma {:induction false} SplitWord(w: string)
    requires Sep !in w
    ensures Split(w) == [w]
    decreases |w|
  {
    if w != [] {
      SplitWord(w[1..]);
      assert [w[0]] + w[1..] == w;
    }
  }

  /** Splitting undoes joining, for separator-free parts. */
  lemma {:induction false} SplitJoin(parts: seq<string>)
    requires |parts| >= 1
    requires forall i :: 0 <= i < |parts| ==> Sep !in parts[i]
    ensures Split(Join(parts)) == parts
  {
    if |parts| == 1 {
      SplitWord(parts[0]);
    } else {
      SplitJoin(parts[1..]);
      SplitWordThen(parts[0], Join(parts[1..]));
    }
  }

  /** Appending a segment to a path appends it to the split. */
  lemma SplitAppend(p: string, seg: string)
    requires Sep !in seg
    ensures Split(p + [Sep] + seg) == Split(p) + [seg]
  {
    var parts := Split(p) + [seg];
    JoinLast(parts);
    assert parts[..|parts| - 1] == Split(p);
    SplitJoin(parts);
  }

  /** `ParentId` and `LastSegment` take `p + "/" + seg` apart again. */
  lemma ParentOfJoined(p: string, seg: string)
    requires Sep !in seg
    ensures ParentId(p + [Sep] + seg) == p
    ensures LastSegment(p + [Sep] + seg) == seg
  {
    SplitAppend(p, seg);
    var parts := Split(p) + [seg];
    assert parts[..|parts| - 1] == Split(p);
  }

  /** `ParentId` and `LastSegment` invert `ChildId`. */
  lemma ChildIdInverse(parent: string, seg: string)
    requires Sep !in seg
    ensures ParentId(ChildId(parent, seg)) == parent
    ensures LastSegment(ChildId(parent, seg)) == seg
  {
    if parent != "" {
      ParentOfJoined(parent, seg);
    }
  }

  /** `[parent, seg].join("/")`, the child id built by a rename, always has
      `parent` as its parent id and keeps the segment. */
  lemma JoinPairInverse(parent: string, seg: string)
    requires Sep !in seg
    ensures Join([parent, seg]) == parent + [Sep] + seg
    ensures ParentId(Join([parent, seg])) == parent
    ensures LastSegment(Join([parent, seg])) == seg
  {
    assert [parent, seg][1..] == [seg];
    ParentOfJoined(parent, seg);
  }

  /** `p + "/" + seg` lies below `p`. */
  lemma WithinJoined(p: string, seg: string)
    ensures Within(p, p + [Sep] + seg)
  {
    var k := p + [Sep] + seg;
    assert k[..|p|] == p && k[|p|] == Sep;
  }

  /** Lying below is transitive. */
  lemma WithinTrans(a: string, b: string, k: string)
    requires Within(a, b) && Within(b, k)
    ensures Within(a, k)
  {
    if k != b && b != a {
      assert k[..|a|] == k[..|b|][..|a|];
    }
  }
  /** Two paths that both lie above `k` lie one below the other. */
  lemma WithinOverlap(a: string, b: string, k: string)
    requires Within(a, k) && Within(b, k)
    ensures Within(a, b) || Within(b, a)
  {
    if |a| < |b| {
      assert b[..|a|] == k[..|b|][..|a|];
    } else if |b| < |a| {
      assert a[..|b|] == k[..|a|][..|b|];
    } else {
      assert a == k[..|a|] && b == k[..|b|];
    }
  }

  /** The parent of an id strictly below `o` still lies below `o`. */
  lemma ParentWithin(o: string, k: string)
    requires Within(o, k) && k != o
    ensures Within(o, ParentId(k))
  {
    assert Sep in k by { assert k[|o|] == Sep; }
    var q := ParentId(k);
    var seg := LastSegment(k);
    assert k == q + [Sep] + seg;
    assert |q| >= |o|;
    if |q| > |o| {
      assert q[..|o|] == k[..|o|] && q[|o|] == k[|o|];
    }
  }

  /** Two children `p + "/" + a` and `p + "/" + b` lie one below the other
      only when they are the same. */
  lemma SiblingsApart(p: string, a: string, b: string)
    requires Sep !in a && Sep !in b
    requires Within(p + [Sep] + a, p + [Sep] + b)
    ensures a == b
  {
    var x := p + [Sep] + a;
    var y := p + [Sep] + b;
    assert y == x;
    assert a == x[|p| + 1..] && b == y[|p| + 1..];
  }

  /** Whatever lies below `c` lies, with `c` swapped for `c'`, below `c'`. */
  lemma WithinAppend(c: string, c': string, k: string)
    requires Within(c, k)
    ensures Within(c', c' + k[|c|..])
  {
    var s := k[|c|..];
    if k != c {
      assert s[0] == k[|c|] == Sep;
      assert (c' + s)[..|c'|] == c' && (c' + s)[|c'|] == s[0];
    } else {
      assert c' + s == c';
    }
  }
}

=== FILE: rename_properties.dfy ===
/** What `handleRename` does to a repository: the shape of the re-keyed
    node, the ids its children move to, the rewrite of the old parent's
    reference, where the subtree ends up, which consistency conditions a
    rename keeps when the two paths are apart (and an example where they
    are not), and the fact that renaming a node to its own path changes
    nothing. */
module RenameProperties {
  import opened Wrappers
  import opened Types
  import opened Paths
  import opened Invariants
  import opened Utils

  // ---------------------------------------------------------------------
  // The old parent's reference

  /** Reference definition: `s` with its first occurrence of `x` replaced
      by `y`. */
  function ReplaceFirst(s: seq<string>, x: string, y: string): seq<string>
  {
    if s == [] then []
    else if s[0] == x then [y] + s[1..]
    else [s[0]] + ReplaceFirst(s[1..], x, y)
  }

  /** The list keeps its length; one `x` is traded for one `y` when there is
      an `x`, and nothing changes when there is none. */
  lemma {:induction false} ReplaceFirstCount(s: seq<string>, x: string, y: string)
    ensures |ReplaceFirst(s, x, y)| == |s|
    ensures x in s ==> multiset(ReplaceFirst(s, x, y)) == multiset(s) - multiset{x} + multiset{y}
    ensures x !in s ==> ReplaceFirst(s, x, y) == s
  {
    if s != [] {
      assert s == [s[0]] + s[1..];
      ReplaceFirstCount(s[1..], x, y);
      if s[0] == x {
        assert multiset(s) == multiset{x} + multiset(s[1..]);
      } else {
        var t := ReplaceFirst(s[1..], x, y);
        assert multiset(ReplaceFirst(s, x, y)) == multiset{s[0]} + multiset(t);
        assert multiset(s) == multiset{s[0]} + multiset(s[1..]);
      }
    }
  }

  /** Writing `y` at the first index of `x`, as `handleRename` does with a
      splice, is `ReplaceFirst`. */
  lemma {:induction false} IndexedWriteReplacesFirst(items: seq<string>, x: string, y: string)
    ensures IndexOf(items, x) >= 0 ==> items[IndexOf(items, x) := y] == ReplaceFirst(items, x, y)
  {
    if items != [] && items[0] != x {
      IndexedWriteReplacesFirst(items[1..], x, y);
      var j := IndexOf(items[1..], x);
      if j >= 0 {
        assert items[j + 1 := y] == [items[0]] + items[1..][j := y];
      }
    }
  }

  /** The parent step of `handleRename`: a missing parent fails, a file
      parent is left alone, and a directory parent has its first reference
      to `oldPath` replaced by `newPath` in place, every other entry and
      field, and every other node, staying as they were. */
  lemma ReplaceInParentFacts(parentId: string, oldPath: string, newPath: string, m: NodesById)
    ensures parentId !in m ==> ReplaceInParent(parentId, oldPath, newPath, m) == Err(MissingNode(parentId))
    ensures parentId in m && m[parentId].File? ==> ReplaceInParent(parentId, oldPath, newPath, m) == Ok(m)
    ensures parentId in m && m[parentId].Dir? ==>
              ReplaceInParent(parentId, oldPath, newPath, m)
              == Ok(m[parentId := m[parentId].(items := ReplaceFirst(m[parentId].items, oldPath, newPath))])
  {
    if parentId in m && m[parentId].Dir? {
      var items := m[parentId].items;
      IndexedWriteReplacesFirst(items, oldPath, newPath);
      ReplaceFirstCount(items, oldPath, newPath);
      if IndexOf(items, oldPath) < 0 {
        assert m[parentId := m[parentId].(items := ReplaceFirst(items, oldPath, newPath))] == m;
      }
    }
  }

  /** Renaming with the parent step is renaming without it, followed by the
      parent step on the result. */
  lemma RenameThenRelink(oldPath: string, newPath: string, nodes: NodesById)
    ensures Rename(oldPath, newPath, nodes, true).Err? ==>
              Rename(oldPath, newPath, nodes, false) == Err(Rename(oldPath, newPath, nodes, true).failure)
    ensures Rename(oldPath, newPath, nodes, true).Ok? ==>
              var v := Rename(oldPath, newPath, nodes, true).value;
              var relinked := ReplaceInParent(ParentId(oldPath), oldPath, newPath, v.0);
              Rename(oldPath, newPath, nodes, false)
              == if relinked.Ok? then Ok((relinked.value, v.1)) else Err(relinked.failure)
  {
  }

  // ---------------------------------------------------------------------
  // The re-keyed node

  /** The children loop yields, in order, each child's id moved under
      `newPath`, one per child. */
  lemma {:induction false} RenameChildrenIds(items: seq<string>, newPath: string, m: NodesById)
    requires RenameChildren(items, newPath, m).Ok?
    ensures var ids := RenameChildren(items, newPath, m).value.1;
            |ids| == |items| && forall i :: 0 <= i < |items| ==> ids[i] == RenamedChildId(newPath, items[i])
    decreases |items|
  {
    if items != [] {
      var m1 := RenameChild(items[0], newPath, m).value;
      RenameChildrenIds(items[1..], newPath, m1);
      var rest := RenameChildren(items[1..], newPath, m1).value.1;
      var ids := RenameChildren(items, newPath, m).value.1;
      assert ids == [RenamedChildId(newPath, items[0])] + rest;
      forall i | 0 <= i < |items| ensures ids[i] == RenamedChildId(newPath, items[i]) {
        if i > 0 {
          assert ids[i] == rest[i - 1] && items[i] == items[1..][i - 1];
        }
      }
    }
  }

  /** A moved child keeps its last segment and has `newPath` as its parent.
      Below the empty id the join still puts a separator first, so the new
      id is not the one `updateNodes` would give the same child. */
  lemma RenamedChildIdParts(newPath: string, c: string)
    ensures ParentId(RenamedChildId(newPath, c)) == newPath
    ensures LastSegment(RenamedChildId(newPath, c)) == LastSegment(c)
    ensures newPath == "" ==> RenamedChildId(newPath, c) == [Sep] + LastSegment(c)
    ensures newPath != "" ==> RenamedChildId(newPath, c) == ChildId(newPath, LastSegment(c))
  {
    JoinPairInverse(newPath, LastSegment(c));
  }

  /** A missing node fails the rename; otherwise the node returned is the
      old node re-keyed to `newPath`, and it is stored there unless the
      parent step overwrote it (only when the old parent is `newPath`). */
  lemma RenameShape(oldPath: string, newPath: string, nodes: NodesById, skipUpdateParent: bool)
    ensures oldPath !in nodes ==> Rename(oldPath, newPath, nodes, skipUpdateParent) == Err(MissingNode(oldPath))
    ensures Rename(oldPath, newPath, nodes, skipUpdateParent).Ok? ==>
              oldPath in nodes && RekeyedFrom(nodes[oldPath], Rename(oldPath, newPath, nodes, skipUpdateParent).value.1, newPath)
    ensures Rename(oldPath, newPath, nodes, skipUpdateParent).Ok? && (skipUpdateParent || ParentId(oldPath) != newPath) ==>
              var v := Rename(oldPath, newPath, nodes, skipUpdateParent).value;
              newPath in v.0 && v.0[newPath] == v.1
  {
    if oldPath in nodes && Rename(oldPath, newPath, nodes, skipUpdateParent).Ok? {
      var existing := nodes[oldPath];
      var m := nodes - {oldPath};
      if existing.Dir? {
        RenameChildrenIds(existing.items, newPath, m);
      }
      var children := if existing.Dir? then RenameChildren(existing.items, newPath, m).value else (m, []);
      var m3 := children.0[newPath := Rekeyed(existing, newPath, children.1)];
      ReplaceInParentFacts(ParentId(oldPath), oldPath, newPath, m3);
    }
  }

  // ---------------------------------------------------------------------
  // Renaming a node to its own path

  /** Every node is stored under its own id and named after the last
      segment of it, and a file links to its own id: the form in which
      `handleRename` itself writes nodes. */
  ghost predicate Canonical(m: NodesById)
  {
    forall k :: k in m ==> m[k].id == k && m[k].name == LastSegment(k) && (m[k].File? ==> m[k].link == k)
  }

  /** A child listed under a non-empty parent id is a longer id, and moving
      it under that same parent gives its own id back. */
  lemma ChildOfNonEmpty(p: string, c: string)
    requires p != "" && ParentId(c) == p
    ensures c != "" && |p| < |c|
    ensures RenamedChildId(p, c) == c
  {
    assert Sep in c;
    JoinPairInverse(p, LastSegment(c));
  }

  /** One unfolding of `Rename` without the parent step: the node leaves
      its key, its children (if any) are moved, and its re-keyed copy is
      stored at `newPath`. */
  lemma RenameStep(oldPath: string, newPath: string, nodes: NodesById)
    requires oldPath in nodes
    ensures var existing := nodes[oldPath];
            var m := nodes - {oldPath};
            existing.File? ==>
              var node := Rekeyed(existing, newPath, []);
              Rename(oldPath, newPath, nodes, true) == Ok((m[newPath := node], node))
    ensures var existing := nodes[oldPath];
            var m := nodes - {oldPath};
            existing.Dir? && RenameChildren(existing.items, newPath, m).Ok? ==>
              var children := RenameChildren(existing.items, newPath, m).value;
              var node := Rekeyed(existing, newPath, children.1);
              Rename(oldPath, newPath, nodes, true) == Ok((children.0[newPath := node], node))
  {
  }

  /** Writing a node back under the key it was taken from. */
  lemma PutBack(s: NodesById, p: string)
    requires p in s
    ensures (s - {p})[p := s[p]] == s
  {
  }

  /** The parent step for a rename to the same path changes nothing. */
  lemma RelinkToSelf(parentId: string, p: string, s: NodesById)
    requires parentId in s
    ensures ReplaceInParent(parentId, p, p, s) == Ok(s)
  {
    if s[parentId].Dir? {
      var items := s[parentId].items;
      var idx := IndexOf(items, p);
      if idx >= 0 {
        assert items[idx := p] == items;
        assert s[parentId := s[parentId]] == s;
      }
    }
  }

  /** The recursion behind `RenameToSelf`. References may dangle only to ids
      shorter than `p`: the nodes the enclosing calls took out. */
  lemma {:induction false} RenameSelfFrom(p: string, s: NodesById, pending: set<string>, skipUpdateParent: bool)
    requires p in s && p != ""
    requires Canonical(s) && ParentLinked(s) && NoDanglingExcept(s, pending)
    requires forall x :: x in pending ==> |x| < |p|
    requires skipUpdateParent || ParentId(p) in s
    ensures Rename(p, p, s, skipUpdateParent) == Ok((s, s[p]))
    decreases |s|, 0
  {
    var node := s[p];
    var m := s - {p};
    CardRemove(s, p);
    if node.Dir? {
      assert RenameChildren(node.items, p, m) == Ok((m, node.items)) by {
        assert NoDanglingExcept(m, pending + {p}) by {
          forall k, c | k in m && m[k].Dir? && c in m[k].items ensures c in m || c in pending + {p} {
            assert s[k] == m[k];
          }
        }
        forall c | c in node.items ensures c in m && ParentId(c) == p {
          ChildOfNonEmpty(p, c);
        }
        RenameChildrenSelf(node.items, p, m, pending + {p});
      }
      assert Rekeyed(node, p, node.items) == node;
    } else {
      assert Rekeyed(node, p, []) == node;
    }
    RenameStep(p, p, s);
    PutBack(s, p);
    if !skipUpdateParent {
      RenameThenRelink(p, p, s);
      RelinkToSelf(ParentId(p), p, s);
    }
  }

  /** One child of a self-rename moves to its own id: a subdirectory by a
      self-rename of its own, a file by being written back as it was. */
  lemma {:induction false} ChildToSelf(c: string, p: string, m: NodesById, pending: set<string>)
    requires p != ""
    requires Canonical(m) && ParentLinked(m) && NoDanglingExcept(m, pending)
    requires forall x :: x in pending ==> |x| <= |p|
    requires c in m && ParentId(c) == p
    ensures RenameChild(c, p, m) == Ok(m)
    decreases |m|, 1, 0
  {
    ChildOfNonEmpty(p, c);
    if m[c].Dir? {
      RenameSelfFrom(c, m, pending, true);
    } else {
      assert m[c] == File(c, LastSegment(c), c);
      PutBack(m, c);
    }
  }

  /** The children loop of a self-rename leaves the repository and the
      list of children as they were. */
  lemma {:induction false} RenameChildrenSelf(items: seq<string>, p: string, m: NodesById, pending: set<string>)
    requires p != ""
    requires Canonical(m) && ParentLinked(m) && NoDanglingExcept(m, pending)
    requires forall x :: x in pending ==> |x| <= |p|
    requires forall c :: c in items ==> c in m && ParentId(c) == p
    ensures RenameChildren(items, p, m) == Ok((m, items))
    decreases |m|, 1, |items|
  {
    if items != [] {
      var c := items[0];
      assert RenameChildren(items, p, m) == AfterDone([c], RenameChildren(items[1..], p, m)) by {
        ChildOfNonEmpty(p, c);
        ChildToSelf(c, p, m, pending);
        RenameChildrenStep(items, p, m);
      }
      RenameChildrenSelf(items[1..], p, m, pending);
      assert items == [c] + items[1..];
    }
  }

  /** Renaming a node to its own path, in a repository in canonical form
      whose references resolve, leaves the whole repository as it was and
      returns the node unchanged. The old parent must exist unless its step
      is skipped. The empty id is excluded: below it, children would move
      to `"/" + name`. */
  lemma RenameToSelf(p: string, s: NodesById, skipUpdateParent: bool)
    requires p in s && p != ""
    requires Canonical(s) && ParentLinked(s) && NoDangling(s)
    requires skipUpdateParent || ParentId(p) in s
    ensures Rename(p, p, s, skipUpdateParent) == Ok((s, s[p]))
  {
    RenameSelfFrom(p, s, {}, skipUpdateParent);
  }

  // ---------------------------------------------------------------------
  // What a rename leaves alone

  /** From `before` to `after`, only ids below `o` have gone or changed, and
      only ids below `n` have appeared or changed. */
  ghost predicate KeptOutside(before: NodesById, after: NodesById, o: string, n: string)
  {
    && (forall k :: k in before && !Within(o, k) && !Within(n, k) ==> k in after && after[k] == before[k])
    && (forall k :: k in after && !Within(n, k) ==> k in before && after[k] == before[k])
  }

  /** What is kept outside two subtrees is kept outside any enclosing ones. */
  lemma KeptOutsideWiden(before: NodesById, after: NodesById, o': string, n': string, o: string, n: string)
    requires KeptOutside(before, after, o', n')
    requires Within(o, o') && Within(n, n')
    ensures KeptOutside(before, after, o, n)
  {
    forall k | !Within(n, k) ensures !Within(n', k) {
      if Within(n', k) {
        WithinTrans(n, n', k);
      }
    }
    forall k | !Within(o, k) ensures !Within(o', k) {
      if Within(o', k) {
        WithinTrans(o, o', k);
      }
    }
  }

  /** Two steps that each keep the outside keep it together. */
  lemma KeptOutsideTrans(a: NodesById, b: NodesById, c: NodesById, o: string, n: string)
    requires KeptOutside(a, b, o, n) && KeptOutside(b, c, o, n)
    ensures KeptOutside(a, c, o, n)
  {
  }

  /** Storing a node whose children all have `n` as parent id keeps the
      repository parent-linked. */
  lemma ParentLinkedStore(m: NodesById, n: string, node: Node)
    requires ParentLinked(m)
    requires node.Dir? ==> forall c :: c in node.items ==> ParentId(c) == n
    ensures ParentLinked(m[n := node])
  {
  }

  /** The children of a node at a non-empty id lie below it. */
  lemma ChildWithin(o: string, c: string)
    requires o != "" && ParentId(c) == o
    ensures c != "" && Within(o, c)
  {
    assert Sep in c;
    WithinJoined(o, LastSegment(c));
  }

  /** The re-keyed node of a directory lists only ids whose parent is the
      new path. */
  lemma RenamedChildrenLinked(items: seq<string>, n: string, m: NodesById)
    requires RenameChildren(items, n, m).Ok?
    ensures forall c :: c in RenameChildren(items, n, m).value.1 ==> ParentId(c) == n
  {
    RenameChildrenIds(items, n, m);
    var ids := RenameChildren(items, n, m).value.1;
    forall c | c in ids ensures ParentId(c) == n {
      var i :| 0 <= i < |ids| && ids[i] == c;
      RenamedChildIdParts(n, items[i]);
    }
  }

  /** A rename that skips the parent step touches only ids below the old
      and the new path, and keeps a parent-linked repository parent-linked. */
  lemma {:induction false} RenameFrameSkip(o: string, n: string, nodes: NodesById)
    requires o != "" && ParentLinked(nodes)
    requires Rename(o, n, nodes, true).Ok?
    ensures ParentLinked(Rename(o, n, nodes, true).value.0)
    ensures KeptOutside(nodes, Rename(o, n, nodes, true).value.0, o, n)
    decreases |nodes|, 0
  {
    var existing := nodes[o];
    var m := nodes - {o};
    CardRemove(nodes, o);
    assert ParentLinked(m) && KeptOutside(nodes, m, o, n) by {
      assert Within(o, o);
    }
    RenameStep(o, n, nodes);
    var r := Rename(o, n, nodes, true).value;
    var node := r.1;
    if existing.Dir? {
      var children := RenameChildren(existing.items, n, m).value;
      RenameChildrenFrame(existing.items, o, n, m);
      RenamedChildrenLinked(existing.items, n, m);
      ParentLinkedStore(children.0, n, node);
      assert KeptOutside(children.0, r.0, o, n) by {
        assert Within(n, n);
      }
      KeptOutsideTrans(m, children.0, r.0, o, n);
    } else {
      ParentLinkedStore(m, n, node);
      assert KeptOutside(m, r.0, o, n) by {
        assert Within(n, n);
      }
    }
    KeptOutsideTrans(nodes, m, r.0, o, n);
  }

  /** One child of a renamed directory: it lies below the old path, and
      what it moves to lies below the new one. */
  lemma {:induction false} RenameChildFrame(c: string, o: string, n: string, m: NodesById)
    requires o != "" && ParentLinked(m) && ParentId(c) == o
    requires RenameChild(c, n, m).Ok?
    ensures ParentLinked(RenameChild(c, n, m).value)
    ensures KeptOutside(m, RenameChild(c, n, m).value, o, n)
    decreases |m|, 1, 0
  {
    var seg := LastSegment(c);
    var c' := Join([n, seg]);
    JoinPairInverse(n, seg);
    WithinJoined(n, seg);
    ChildWithin(o, c);
    var r := RenameChild(c, n, m).value;
    if m[c].Dir? {
      RenameFrameSkip(c, c', m);
      KeptOutsideWiden(m, r, c, c', o, n);
    } else {
      ParentLinkedStore(m - {c}, c', File(c', seg, c'));
      forall k | k in m && !Within(o, k) && !Within(n, k) ensures k in r && r[k] == m[k] {
        assert k != c && k != c';
      }
    }
  }

  /** The children loop touches only ids below the old and the new path. */
  lemma {:induction false} RenameChildrenFrame(items: seq<string>, o: string, n: string, m: NodesById)
    requires o != "" && ParentLinked(m)
    requires forall c :: c in items ==> ParentId(c) == o
    requires RenameChildren(items, n, m).Ok?
    ensures ParentLinked(RenameChildren(items, n, m).value.0)
    ensures KeptOutside(m, RenameChildren(items, n, m).value.0, o, n)
    decreases |m|, 2, |items|
  {
    if items != [] {
      RenameChildrenStep(items, n, m);
      var m1 := RenameChild(items[0], n, m).value;
      RenameChildFrame(items[0], o, n, m);
      RenameChildrenFrame(items[1..], o, n, m1);
      KeptOutsideTrans(m, m1, RenameChildren(items, n, m).value.0, o, n);
    }
  }

  /** `handleRename` changes only ids below the old path (which it removes),
      ids below the new path (which it writes), and, unless the parent step
      is skipped, the old parent. A parent-linked repository stays so when
      the parent step is skipped or the node stays in the same directory. */
  lemma RenameKeepsOthers(o: string, n: string, nodes: NodesById, skipUpdateParent: bool)
    requires o != "" && ParentLinked(nodes)
    requires Rename(o, n, nodes, skipUpdateParent).Ok?
    ensures var r := Rename(o, n, nodes, skipUpdateParent).value.0;
            forall k :: k in nodes && !Within(o, k) && !Within(n, k) && (skipUpdateParent || k != ParentId(o)) ==>
              k in r && r[k] == nodes[k]
    ensures var r := Rename(o, n, nodes, skipUpdateParent).value.0;
            forall k :: k in r && !Within(n, k) && (skipUpdateParent || k != ParentId(o)) ==>
              k in nodes && r[k] == nodes[k]
    ensures skipUpdateParent || ParentId(n) == ParentId(o) ==> ParentLinked(Rename(o, n, nodes, skipUpdateParent).value.0)
  {
    RenameThenRelink(o, n, nodes);
    RenameFrameSkip(o, n, nodes);
    if !skipUpdateParent {
      var v := Rename(o, n, nodes, true).value.0;
      if ParentId(n) == ParentId(o) {
        RelinkKeepsParentLinked(ParentId(o), o, n, v);
      }
    }
  }

  /** Writing `n` into the listing of `n`'s own parent keeps the repository
      parent-linked. */
  lemma RelinkKeepsParentLinked(p: string, o: string, n: string, v: NodesById)
    requires ParentLinked(v) && ParentId(n) == p
    requires ReplaceInParent(p, o, n, v).Ok?
    ensures ParentLinked(ReplaceInParent(p, o, n, v).value)
  {
    ReplaceInParentFacts(p, o, n, v);
    if v[p].Dir? {
      var items := v[p].items;
      ReplaceFirstCount(items, o, n);
      var r := ReplaceInParent(p, o, n, v).value;
      forall k, c | k in r && r[k].Dir? && c in r[k].items ensures ParentId(c) == k {
        if k == p {
          assert multiset(ReplaceFirst(items, o, n))[c] > 0;
          assert c in items || c == n;
        } else {
          assert r[k] == v[k];
        }
      }
    }
  }

  // ---------------------------------------------------------------------
  // Where a rename moves the subtree

  /** Neither path lies at or below the other. */
  predicate Apart(o: string, n: string)
  {
    !Within(o, n) && !Within(n, o)
  }

  /** No key of `m` lies at or below `n`. */
  ghost predicate FreeBelow(m: NodesById, n: string)
  {
    forall k :: k in m ==> !Within(n, k)
  }

  /** Every node at or below `n` is stored under its own id, and every
      directory there lists only ids below `n` that resolve. */
  ghost predicate SoundBelow(m: NodesById, n: string)
  {
    forall k :: k in m && Within(n, k) ==>
      m[k].id == k && (m[k].Dir? ==> forall c :: c in m[k].items ==> c in m && Within(n, c))
  }

  /** Every key that left, left from below `o`, and is `o` itself or left
      together with its parent. */
  ghost predicate RemovedWithParent(before: NodesById, after: NodesById, o: string)
  {
    forall k :: k in before && k !in after ==> Within(o, k) && (k == o || ParentId(k) !in after)
  }

  /** The node at `c` has moved to `c'`: `c` is gone and `c'` holds its
      re-keyed copy. */
  ghost predicate MovedTo(before: NodesById, after: NodesById, c: string, c': string)
  {
    c in before && c !in after && c' in after && RekeyedFrom(before[c], after[c'], c')
  }

  /** Two different children of one directory move to ids neither of which
      lies below the other. */
  lemma RenamedApart(o: string, n: string, c1: string, c2: string)
    requires o != "" && ParentId(c1) == o && ParentId(c2) == o && c1 != c2
    ensures !Within(RenamedChildId(n, c1), RenamedChildId(n, c2))
  {
    assert Sep in c1 && Sep in c2;
    JoinPairInverse(n, LastSegment(c1));
    JoinPairInverse(n, LastSegment(c2));
    if Within(RenamedChildId(n, c1), RenamedChildId(n, c2)) {
      SiblingsApart(n, LastSegment(c1), LastSegment(c2));
    }
  }

  /** One child step touches only ids below the child and below its new id. */
  lemma RenameChildNarrow(c: string, n: string, m: NodesById)
    requires c != "" && ParentLinked(m)
    requires RenameChild(c, n, m).Ok?
    ensures ParentLinked(RenameChild(c, n, m).value)
    ensures KeptOutside(m, RenameChild(c, n, m).value, c, RenamedChildId(n, c))
  {
    var seg := LastSegment(c);
    var c' := Join([n, seg]);
    if m[c].Dir? {
      RenameFrameSkip(c, c', m);
    } else {
      ParentLinkedStore(m - {c}, c', File(c', seg, c'));
      assert Within(c, c) && Within(c', c');
    }
  }

  /** The children loop leaves alone a node outside the old path that no
      child's new id lies above. */
  lemma {:induction false} RenameChildrenKeeps(items: seq<string>, o: string, n: string, m: NodesById, x: string)
    requires o != "" && ParentLinked(m)
    requires forall c :: c in items ==> ParentId(c) == o
    requires RenameChildren(items, n, m).Ok?
    requires x in m && !Within(o, x)
    requires forall c :: c in items ==> !Within(RenamedChildId(n, c), x)
    ensures x in RenameChildren(items, n, m).value.0 && RenameChildren(items, n, m).value.0[x] == m[x]
    decreases |items|
  {
    if items != [] {
      var c := items[0];
      RenameChildrenStep(items, n, m);
      ChildWithin(o, c);
      RenameChildNarrow(c, n, m);
      var m1 := RenameChild(c, n, m).value;
      assert !Within(c, x) by {
        if Within(c, x) {
          WithinTrans(o, c, x);
        }
      }
      RenameChildrenKeeps(items[1..], o, n, m1, x);
    }
  }

  /** A rename without the parent step, to a path apart from the old one
      under which nothing is stored yet: the old node leaves, each listed
      child moves to its new id, the nodes at or below the new path are
      sound, every key that left was below the old path and left with its
      parent, and no list gains a repeat. */
  lemma {:induction false} RenameMovesSkip(o: string, n: string, nodes: NodesById)
    requires o != "" && Apart(o, n)
    requires ParentLinked(nodes) && NoDuplicateRefs(nodes) && FreeBelow(nodes, n)
    requires Rename(o, n, nodes, true).Ok?
    ensures var r := Rename(o, n, nodes, true).value.0;
            && o !in r && NoDuplicateRefs(r) && SoundBelow(r, n) && RemovedWithParent(nodes, r, o)
            && (nodes[o].Dir? ==> forall c :: c in nodes[o].items ==> MovedTo(nodes, r, c, RenamedChildId(n, c)))
    decreases |nodes|, 0
  {
    var existing := nodes[o];
    var m := nodes - {o};
    CardRemove(nodes, o);
    RenameStep(o, n, nodes);
    RenameShape(o, n, nodes, true);
    var res := Rename(o, n, nodes, true).value;
    var r := res.0;
    var node := res.1;
    assert Within(o, o) && Within(n, n);
    if existing.Dir? {
      var items := existing.items;
      var ch := RenameChildren(items, n, m).value.0;
      assert r == ch[n := node];
      assert ParentLinked(m) && NoDuplicateRefs(m) && SoundBelow(m, n);
      forall c | c in items ensures ParentId(c) == o && FreeBelow(m, RenamedChildId(n, c)) {
        JoinPairInverse(n, LastSegment(c));
        WithinJoined(n, LastSegment(c));
        forall k | k in m ensures !Within(RenamedChildId(n, c), k) {
          if Within(RenamedChildId(n, c), k) {
            WithinTrans(n, RenamedChildId(n, c), k);
          }
        }
      }
      RenameChildrenMoves(items, o, n, m);
      RenameChildrenFrame(items, o, n, m);
      RenameChildrenIds(items, n, m);
      StoreMovedDir(o, n, nodes, ch, node);
    } else {
      assert r == m[n := node];
    }
  }

  /** Storing the re-keyed directory at `n` after its children have moved
      completes `RenameMovesSkip`. */
  lemma StoreMovedDir(o: string, n: string, nodes: NodesById, ch: NodesById, node: Node)
    requires o != "" && Apart(o, n) && o in nodes && nodes[o].Dir?
    requires ParentLinked(nodes) && NoDuplicateRefs(nodes)
    requires KeptOutside(nodes - {o}, ch, o, n)
    requires NoDuplicateRefs(ch) && SoundBelow(ch, n) && RemovedWithParent(nodes - {o}, ch, o)
    requires forall c :: c in nodes[o].items ==> MovedTo(nodes - {o}, ch, c, RenamedChildId(n, c))
    requires RekeyedFrom(nodes[o], node, n)
    ensures var r := ch[n := node];
            && o !in r && NoDuplicateRefs(r) && SoundBelow(r, n) && RemovedWithParent(nodes, r, o)
            && forall c :: c in nodes[o].items ==> MovedTo(nodes, r, c, RenamedChildId(n, c))
  {
    StoredDirSound(o, n, nodes, ch, node);
    StoredDirMoves(o, n, nodes, ch, node);
  }

  /** The stored directory lists its children's new ids, which resolve,
      once each. */
  lemma StoredDirSound(o: string, n: string, nodes: NodesById, ch: NodesById, node: Node)
    requires o != "" && o in nodes && nodes[o].Dir?
    requires ParentLinked(nodes) && NoDuplicateRefs(nodes)
    requires NoDuplicateRefs(ch) && SoundBelow(ch, n)
    requires forall c :: c in nodes[o].items ==> MovedTo(nodes - {o}, ch, c, RenamedChildId(n, c))
    requires RekeyedFrom(nodes[o], node, n)
    ensures NoDuplicateRefs(ch[n := node]) && SoundBelow(ch[n := node], n)
  {
    var items := nodes[o].items;
    var r := ch[n := node];
    assert Distinct(node.items) by {
      forall i, j | 0 <= i < j < |node.items| ensures node.items[i] != node.items[j] {
        RenamedApart(o, n, items[i], items[j]);
      }
    }
    forall c | c in node.items ensures c in r && Within(n, c) {
      var i :| 0 <= i < |node.items| && node.items[i] == c;
      assert MovedTo(nodes - {o}, ch, items[i], c);
      JoinPairInverse(n, LastSegment(items[i]));
      WithinJoined(n, LastSegment(items[i]));
    }
  }

  /** Storing the directory removes nothing more and keeps the children
      where they moved. */
  lemma StoredDirMoves(o: string, n: string, nodes: NodesById, ch: NodesById, node: Node)
    requires o != "" && Apart(o, n) && o in nodes && nodes[o].Dir?
    requires ParentLinked(nodes)
    requires KeptOutside(nodes - {o}, ch, o, n)
    requires RemovedWithParent(nodes - {o}, ch, o)
    requires forall c :: c in nodes[o].items ==> MovedTo(nodes - {o}, ch, c, RenamedChildId(n, c))
    ensures var r := ch[n := node];
            && o !in r && RemovedWithParent(nodes, r, o)
            && forall c :: c in nodes[o].items ==> MovedTo(nodes, r, c, RenamedChildId(n, c))
  {
    var r := ch[n := node];
    assert Within(o, o) && Within(n, n);
    assert o !in ch;
    forall k | k in nodes && k !in r ensures Within(o, k) && (k == o || ParentId(k) !in r) {
      if k != o {
        ParentWithin(o, k);
      }
    }
    forall c | c in nodes[o].items ensures MovedTo(nodes, r, c, RenamedChildId(n, c)) {
      assert MovedTo(nodes - {o}, ch, c, RenamedChildId(n, c));
      ChildWithin(o, c);
      JoinPairInverse(n, LastSegment(c));
    }
  }

  /** One child of a directory being renamed moves to its new id. */
  lemma {:induction false} RenameChildMoves(c: string, o: string, n: string, m: NodesById)
    requires o != "" && Apart(o, n) && ParentId(c) == o
    requires ParentLinked(m) && NoDuplicateRefs(m) && FreeBelow(m, RenamedChildId(n, c))
    requires RenameChild(c, n, m).Ok?
    ensures var r := RenameChild(c, n, m).value;
            && MovedTo(m, r, c, RenamedChildId(n, c))
            && NoDuplicateRefs(r) && SoundBelow(r, RenamedChildId(n, c)) && RemovedWithParent(m, r, c)
    decreases |m|, 1, 0
  {
    var seg := LastSegment(c);
    var c' := RenamedChildId(n, c);
    JoinPairInverse(n, seg);
    WithinJoined(n, seg);
    ChildWithin(o, c);
    MovedChildApart(c, o, n);
    if m[c].Dir? {
      RenameMovesSkip(c, c', m);
      RenameShape(c, c', m, true);
    } else {
      assert Within(c, c) && Within(c', c');
      assert RenameChild(c, n, m).value == (m - {c})[c' := File(c', seg, c')];
    }
  }

  /** The children loop of a rename moves every child to its new id. */
  lemma {:induction false} RenameChildrenMoves(items: seq<string>, o: string, n: string, m: NodesById)
    requires o != "" && Apart(o, n) && o !in m
    requires forall c :: c in items ==> ParentId(c) == o
    requires Distinct(items)
    requires ParentLinked(m) && NoDuplicateRefs(m) && SoundBelow(m, n)
    requires forall c :: c in items ==> FreeBelow(m, RenamedChildId(n, c))
    requires RenameChildren(items, n, m).Ok?
    ensures var r := RenameChildren(items, n, m).value.0;
            && NoDuplicateRefs(r) && SoundBelow(r, n) && RemovedWithParent(m, r, o)
            && forall c :: c in items ==> MovedTo(m, r, c, RenamedChildId(n, c))
    decreases |m|, 2, |items|
  {
    if items != [] {
      var c := items[0];
      var c' := RenamedChildId(n, c);
      var rest := items[1..];
      RenameChildrenStep(items, n, m);
      var m1 := RenameChild(c, n, m).value;
      var r := RenameChildren(items, n, m).value.0;
      assert r == RenameChildren(rest, n, m1).value.0;
      RenameChildMoves(c, o, n, m);
      RenameChildNarrow(c, n, m);
      ChildWithin(o, c);
      TailReady(c, rest, o, n, m, m1);
      RenameChildrenMoves(rest, o, n, m1);
      RenameChildrenFrame(rest, o, n, m1);
      LoopAssemble(c, rest, o, n, m, m1, r);
    }
  }

  /** After the first child has moved, the rest of the loop meets the
      preconditions of `RenameChildrenMoves`. */
  lemma TailReady(c: string, rest: seq<string>, o: string, n: string, m: NodesById, m1: NodesById)
    requires o != "" && Apart(o, n) && o !in m && ParentId(c) == o
    requires forall d :: d in rest ==> ParentId(d) == o && d != c
    requires SoundBelow(m, n)
    requires forall d :: d in [c] + rest ==> FreeBelow(m, RenamedChildId(n, d))
    requires KeptOutside(m, m1, c, RenamedChildId(n, c)) && SoundBelow(m1, RenamedChildId(n, c))
    ensures o !in m1 && SoundBelow(m1, n)
    ensures forall d :: d in rest ==> FreeBelow(m1, RenamedChildId(n, d))
  {
    var c' := RenamedChildId(n, c);
    JoinPairInverse(n, LastSegment(c));
    WithinJoined(n, LastSegment(c));
    ChildWithin(o, c);
    assert FreeBelow(m, c') by {
      assert c in [c] + rest;
    }
    assert o !in m1 by {
      if Within(c', o) {
        WithinTrans(n, c', o);
      }
    }
    forall k | k in m1 && Within(n, k)
      ensures m1[k].id == k && (m1[k].Dir? ==> forall x :: x in m1[k].items ==> x in m1 && Within(n, x))
    {
      if Within(c', k) {
        forall x | m1[k].Dir? && x in m1[k].items ensures Within(n, x) {
          WithinTrans(n, c', x);
        }
      } else {
        assert k in m && m1[k] == m[k];
        forall x | m1[k].Dir? && x in m1[k].items ensures x in m1 {
          if Within(c, x) {
            WithinTrans(o, c, x);
            WithinOverlap(o, n, x);
          }
        }
      }
    }
    forall d | d in rest ensures FreeBelow(m1, RenamedChildId(n, d)) {
      var d' := RenamedChildId(n, d);
      assert d in [c] + rest;
      forall k | k in m1 ensures !Within(d', k) {
        if Within(d', k) && Within(c', k) {
          WithinOverlap(c', d', k);
          RenamedApart(o, n, c, d);
          RenamedApart(o, n, d, c);
        }
      }
    }
  }

  /** Combining the first child's move with the rest of the loop. */
  lemma LoopAssemble(c: string, rest: seq<string>, o: string, n: string, m: NodesById, m1: NodesById, r: NodesById)
    requires o != "" && Apart(o, n) && o !in m && ParentId(c) == o
    requires forall d :: d in rest ==> ParentId(d) == o && d != c
    requires ParentLinked(m1)
    requires RenameChildren(rest, n, m1).Ok? && r == RenameChildren(rest, n, m1).value.0
    requires MovedTo(m, m1, c, RenamedChildId(n, c)) && RemovedWithParent(m, m1, c)
    requires KeptOutside(m, m1, c, RenamedChildId(n, c)) && KeptOutside(m1, r, o, n)
    requires RemovedWithParent(m1, r, o)
    requires forall d :: d in rest ==> MovedTo(m1, r, d, RenamedChildId(n, d))
    ensures RemovedWithParent(m, r, o)
    ensures forall d :: d in [c] + rest ==> MovedTo(m, r, d, RenamedChildId(n, d))
  {
    var c' := RenamedChildId(n, c);
    JoinPairInverse(n, LastSegment(c));
    WithinJoined(n, LastSegment(c));
    ChildWithin(o, c);
    assert !Within(n, o) && !Within(o, c') by {
      if Within(o, c') {
        WithinOverlap(o, n, c');
      }
    }
    assert o !in r;
    forall k | k in m && k !in r ensures Within(o, k) && (k == o || ParentId(k) !in r) {
      if k !in m1 {
        WithinTrans(o, c, k);
        if k != c {
          ParentWithin(o, k);
          if Within(n, ParentId(k)) {
            WithinOverlap(o, n, ParentId(k));
          }
        }
      }
    }
    assert MovedTo(m, r, c, c') by {
      forall d | d in rest ensures !Within(RenamedChildId(n, d), c') {
        RenamedApart(o, n, d, c);
      }
      RenameChildrenKeeps(rest, o, n, m1, c');
      if Within(n, c) {
        WithinOverlap(o, n, c);
      }
    }
    forall d | d in rest ensures MovedTo(m, r, d, RenamedChildId(n, d)) {
      ChildWithin(o, d);
      if Within(c', d) {
        WithinTrans(n, c', d);
        WithinOverlap(o, n, d);
      }
    }
  }

  /** Where `handleRename` puts what it moves, for a new path apart from the
      old one under which nothing is stored yet: the old id and the old
      children's ids are gone; each child sits at its new id as its re-keyed
      copy (a file child as a file named after its segment and linking to
      its new id); every node at or below the new path is stored under its
      own id and lists only ids below it that resolve. */
  lemma RenameMovesSubtree(o: string, n: string, nodes: NodesById, skipUpdateParent: bool)
    requires o != "" && Apart(o, n)
    requires ParentLinked(nodes) && NoDuplicateRefs(nodes) && FreeBelow(nodes, n)
    requires Rename(o, n, nodes, skipUpdateParent).Ok?
    ensures var r := Rename(o, n, nodes, skipUpdateParent).value.0;
            o !in r && n in r && SoundBelow(r, n)
    ensures nodes[o].Dir? ==>
              forall c :: c in nodes[o].items ==>
                MovedTo(nodes, Rename(o, n, nodes, skipUpdateParent).value.0, c, RenamedChildId(n, c))
  {
    RenameMovesSkip(o, n, nodes);
    RenameShape(o, n, nodes, true);
    if !skipUpdateParent {
      var v := Rename(o, n, nodes, true).value.0;
      var p := ParentId(o);
      RenameThenRelink(o, n, nodes);
      if Within(n, p) {
        RelinkBelowNoop(p, o, n, v);
      }
    }
  }

  /** The parent step changes nothing when the parent lies below `n`, whose
      nodes list only ids below `n`, and `o` does not. */
  lemma RelinkBelowNoop(p: string, o: string, n: string, v: NodesById)
    requires p in v && Within(n, p) && !Within(n, o) && SoundBelow(v, n)
    ensures ReplaceInParent(p, o, n, v) == Ok(v)
  {
    ReplaceInParentFacts(p, o, n, v);
    if v[p].Dir? {
      assert o !in v[p].items;
      ReplaceFirstCount(v[p].items, o, n);
      assert v[p := v[p].(items := v[p].items)] == v;
    }
  }

  /** A child of `o` and its new id below `n` are apart when `o` and `n`
      are. */
  lemma MovedChildApart(c: string, o: string, n: string)
    requires o != "" && Apart(o, n) && ParentId(c) == o
    ensures Apart(c, RenamedChildId(n, c))
  {
    var c' := RenamedChildId(n, c);
    JoinPairInverse(n, LastSegment(c));
    WithinJoined(n, LastSegment(c));
    ChildWithin(o, c);
    if Within(c, c') {
      WithinTrans(o, c, c');
      WithinOverlap(o, n, c');
    }
    if Within(c', c) {
      WithinTrans(n, c', c);
      WithinOverlap(o, n, c);
    }
  }

  // ---------------------------------------------------------------------
  // Where a rename moves every node below the old path

  /** Every key strictly below `p` is listed by the directory its id names
      as parent: nothing below `p` is an orphan. */
  ghost predicate Connected(m: NodesById, p: string)
  {
    forall k :: k in m && Within(p, k) && k != p ==>
      ParentId(k) in m && m[ParentId(k)].Dir? && k in m[ParentId(k)].items
  }

  /** Every key at or below `c` has moved to the same place below `c'`. */
  ghost predicate MovedBelow(before: NodesById, after: NodesById, c: string, c': string)
  {
    forall k :: k in before && Within(c, k) ==> MovedTo(before, after, k, c' + k[|c|..])
  }

  /** Below a connected `o`, a key strictly below `o` lies at or below one
      of the children `o` lists. */
  lemma {:induction false} AncestorChild(m: NodesById, o: string, k: string) returns (c: string)
    requires Connected(m, o) && k in m && Within(o, k) && k != o
    ensures o in m && m[o].Dir? && c in m[o].items && ParentId(c) == o && Within(c, k)
    decreases |k|
  {
    var p := ParentId(k);
    ParentWithin(o, k);
    assert Sep in k by {
      assert k[|o|] == Sep;
    }
    WithinJoined(p, LastSegment(k));
    if p == o {
      c := k;
    } else {
      c := AncestorChild(m, o, p);
      WithinTrans(c, p, k);
    }
  }

  /** Whether a subtree is connected depends only on the nodes in it, and a
      subtree of a connected one is connected. */
  lemma ConnectedNarrow(m: NodesById, m': NodesById, o: string, c: string)
    requires Connected(m, o) && Within(o, c)
    requires forall k :: Within(c, k) ==> (k in m' <==> k in m) && (k in m ==> m'[k] == m[k])
    ensures Connected(m', c)
  {
    forall k | k in m' && Within(c, k) && k != c
      ensures ParentId(k) in m' && m'[ParentId(k)].Dir? && k in m'[ParentId(k)].items
    {
      WithinTrans(o, c, k);
      ParentWithin(c, k);
    }
  }

  /** Two different children of one directory lie apart. */
  lemma SiblingsDisjoint(o: string, c: string, d: string)
    requires o != "" && ParentId(c) == o && ParentId(d) == o && c != d
    ensures !Within(c, d)
  {
    assert Sep in c && Sep in d;
    if Within(c, d) {
      SiblingsApart(o, LastSegment(c), LastSegment(d));
    }
  }

  /** A key below a child `c` of `o` goes to the same place whether it moves
      with `c` to `c`'s new id or with `o` to `n`. */
  lemma RelocateThrough(o: string, n: string, c: string, k: string)
    requires o != "" && ParentId(c) == o && Within(c, k)
    ensures Within(o, k) && RenamedChildId(n, c) + k[|c|..] == n + k[|o|..]
  {
    var seg := LastSegment(c);
    assert Sep in c;
    JoinPairInverse(n, seg);
    ChildWithin(o, c);
    WithinTrans(o, c, k);
    assert k == c + k[|c|..] by {
      if k != c {
        assert k[..|c|] == c;
      }
    }
    assert k[|o|..] == [Sep] + seg + k[|c|..];
  }

  /** The rename without the parent step moves every node at or below a
      connected `o` to the same place below `n`. */
  lemma {:induction false} RenameMovesBelowSkip(o: string, n: string, nodes: NodesById)
    requires o != "" && Apart(o, n)
    requires ParentLinked(nodes) && NoDuplicateRefs(nodes) && FreeBelow(nodes, n)
    requires Connected(nodes, o)
    requires Rename(o, n, nodes, true).Ok?
    ensures MovedBelow(nodes, Rename(o, n, nodes, true).value.0, o, n)
    decreases |nodes|, 0
  {
    var existing := nodes[o];
    var m := nodes - {o};
    CardRemove(nodes, o);
    RenameStep(o, n, nodes);
    RenameShape(o, n, nodes, true);
    RenameMovesSkip(o, n, nodes);
    var res := Rename(o, n, nodes, true).value;
    var r := res.0;
    if existing.Dir? {
      var items := existing.items;
      var ch := RenameChildren(items, n, m).value.0;
      assert r == ch[n := res.1];
      assert ParentLinked(m) && NoDuplicateRefs(m) && SoundBelow(m, n);
      forall c | c in items
        ensures ParentId(c) == o && FreeBelow(m, RenamedChildId(n, c)) && Connected(m, c)
      {
        JoinPairInverse(n, LastSegment(c));
        WithinJoined(n, LastSegment(c));
        forall k | k in m ensures !Within(RenamedChildId(n, c), k) {
          if Within(RenamedChildId(n, c), k) {
            WithinTrans(n, RenamedChildId(n, c), k);
          }
        }
        ChildWithin(o, c);
        ConnectedNarrow(nodes, m, o, c);
      }
      RenameChildrenMovesBelow(items, o, n, m);
      StoreMovedBelow(o, n, nodes, ch, res.1);
    } else {
      forall k | k in nodes && Within(o, k) ensures k == o {
        if k != o {
          var c := AncestorChild(nodes, o, k);
          assert false;
        }
      }
      assert n + o[|o|..] == n;
    }
  }

  /** Storing the re-keyed directory at `n` after every child's subtree has
      moved puts the whole subtree of `o` below `n`. */
  lemma StoreMovedBelow(o: string, n: string, nodes: NodesById, ch: NodesById, node: Node)
    requires o != "" && Apart(o, n) && o in nodes && nodes[o].Dir?
    requires Connected(nodes, o) && o !in ch
    requires forall c :: c in nodes[o].items ==> MovedBelow(nodes - {o}, ch, c, RenamedChildId(n, c))
    requires RekeyedFrom(nodes[o], node, n)
    ensures MovedBelow(nodes, ch[n := node], o, n)
  {
    var r := ch[n := node];
    assert Within(o, o);
    forall k | k in nodes && Within(o, k) ensures MovedTo(nodes, r, k, n + k[|o|..]) {
      if k == o {
        assert n + k[|o|..] == n;
      } else {
        var c := AncestorChild(nodes, o, k);
        RelocateThrough(o, n, c, k);
        assert MovedTo(nodes - {o}, ch, k, RenamedChildId(n, c) + k[|c|..]);
      }
    }
  }

  /** One child step moves every node at or below a connected child. */
  lemma {:induction false} RenameChildMovesBelow(c: string, o: string, n: string, m: NodesById)
    requires o != "" && Apart(o, n) && ParentId(c) == o
    requires ParentLinked(m) && NoDuplicateRefs(m) && FreeBelow(m, RenamedChildId(n, c))
    requires Connected(m, c)
    requires RenameChild(c, n, m).Ok?
    ensures MovedBelow(m, RenameChild(c, n, m).value, c, RenamedChildId(n, c))
    decreases |m|, 1, 0
  {
    var c' := RenamedChildId(n, c);
    RenameChildMoves(c, o, n, m);
    ChildWithin(o, c);
    if m[c].Dir? {
      MovedChildApart(c, o, n);
      RenameMovesBelowSkip(c, c', m);
    } else {
      forall k | k in m && Within(c, k) ensures k == c {
        if k != c {
          var e := AncestorChild(m, c, k);
          assert false;
        }
      }
      assert c' + c[|c|..] == c';
    }
  }

  /** The children loop moves every node at or below each connected child. */
  lemma {:induction false} RenameChildrenMovesBelow(items: seq<string>, o: string, n: string, m: NodesById)
    requires o != "" && Apart(o, n) && o !in m
    requires forall c :: c in items ==> ParentId(c) == o
    requires Distinct(items)
    requires ParentLinked(m) && NoDuplicateRefs(m) && SoundBelow(m, n)
    requires forall c :: c in items ==> FreeBelow(m, RenamedChildId(n, c)) && Connected(m, c)
    requires RenameChildren(items, n, m).Ok?
    ensures forall c :: c in items ==> MovedBelow(m, RenameChildren(items, n, m).value.0, c, RenamedChildId(n, c))
    decreases |m|, 2, |items|
  {
    if items != [] {
      var c := items[0];
      var rest := items[1..];
      RenameChildrenStep(items, n, m);
      var m1 := RenameChild(c, n, m).value;
      var r := RenameChildren(items, n, m).value.0;
      assert r == RenameChildren(rest, n, m1).value.0;
      RenameChildMoves(c, o, n, m);
      RenameChildMovesBelow(c, o, n, m);
      RenameChildNarrow(c, n, m);
      ChildWithin(o, c);
      TailReady(c, rest, o, n, m, m1);
      ConnectedRest(c, rest, o, n, m, m1);
      RenameChildrenMovesBelow(rest, o, n, m1);
      RenameChildrenFrame(rest, o, n, m1);
      FirstMovedBelowKept(c, rest, o, n, m, m1, r);
      RestMovedBelowKept(c, rest, o, n, m, m1, r);
    }
  }

  /** The first child's step leaves the later children's subtrees
      connected. */
  lemma ConnectedRest(c: string, rest: seq<string>, o: string, n: string, m: NodesById, m1: NodesById)
    requires o != "" && Apart(o, n) && ParentId(c) == o
    requires forall d :: d in rest ==> ParentId(d) == o && d != c
    requires forall d :: d in [c] + rest ==> Connected(m, d)
    requires KeptOutside(m, m1, c, RenamedChildId(n, c))
    ensures forall d :: d in rest ==> Connected(m1, d)
  {
    var c' := RenamedChildId(n, c);
    JoinPairInverse(n, LastSegment(c));
    WithinJoined(n, LastSegment(c));
    forall d | d in rest ensures Connected(m1, d) {
      assert d in [c] + rest;
      ChildWithin(o, d);
      forall k | Within(d, k) ensures (k in m1 <==> k in m) && (k in m ==> m1[k] == m[k]) {
        WithinTrans(o, d, k);
        if Within(c, k) {
          WithinOverlap(c, d, k);
          SiblingsDisjoint(o, c, d);
          SiblingsDisjoint(o, d, c);
        }
        if Within(c', k) {
          WithinTrans(n, c', k);
          WithinOverlap(o, n, k);
        }
      }
      assert Within(d, d);
      ConnectedNarrow(m, m1, d, d);
    }
  }

  /** The rest of the loop keeps the first child's subtree where it moved. */
  lemma FirstMovedBelowKept(c: string, rest: seq<string>, o: string, n: string, m: NodesById, m1: NodesById, r: NodesById)
    requires o != "" && Apart(o, n) && ParentId(c) == o
    requires forall d :: d in rest ==> ParentId(d) == o && d != c
    requires ParentLinked(m1)
    requires RenameChildren(rest, n, m1).Ok? && r == RenameChildren(rest, n, m1).value.0
    requires KeptOutside(m1, r, o, n)
    requires MovedBelow(m, m1, c, RenamedChildId(n, c))
    ensures MovedBelow(m, r, c, RenamedChildId(n, c))
  {
    var c' := RenamedChildId(n, c);
    JoinPairInverse(n, LastSegment(c));
    WithinJoined(n, LastSegment(c));
    ChildWithin(o, c);
    forall k | k in m && Within(c, k) ensures MovedTo(m, r, k, c' + k[|c|..]) {
      var k' := c' + k[|c|..];
      assert MovedTo(m, m1, k, k');
      WithinAppend(c, c', k);
      WithinTrans(n, c', k');
      WithinTrans(o, c, k);
      assert !Within(n, k) by {
        if Within(n, k) {
          WithinOverlap(o, n, k);
        }
      }
      assert !Within(o, k') by {
        if Within(o, k') {
          WithinOverlap(o, n, k');
        }
      }
      forall d | d in rest ensures !Within(RenamedChildId(n, d), k') {
        if Within(RenamedChildId(n, d), k') {
          WithinOverlap(c', RenamedChildId(n, d), k');
          RenamedApart(o, n, c, d);
          RenamedApart(o, n, d, c);
        }
      }
      RenameChildrenKeeps(rest, o, n, m1, k');
    }
  }

  /** The later children's subtrees, moved from the state after the first
      step, moved from the state before it too. */
  lemma RestMovedBelowKept(c: string, rest: seq<string>, o: string, n: string, m: NodesById, m1: NodesById, r: NodesById)
    requires o != "" && Apart(o, n) && ParentId(c) == o
    requires forall d :: d in rest ==> ParentId(d) == o && d != c
    requires KeptOutside(m, m1, c, RenamedChildId(n, c))
    requires forall d :: d in rest ==> MovedBelow(m1, r, d, RenamedChildId(n, d))
    ensures forall d :: d in rest ==> MovedBelow(m, r, d, RenamedChildId(n, d))
  {
    var c' := RenamedChildId(n, c);
    JoinPairInverse(n, LastSegment(c));
    WithinJoined(n, LastSegment(c));
    forall d, k | d in rest && k in m && Within(d, k)
      ensures MovedTo(m, r, k, RenamedChildId(n, d) + k[|d|..])
    {
      ChildWithin(o, d);
      WithinTrans(o, d, k);
      if Within(c, k) {
        WithinOverlap(c, d, k);
        SiblingsDisjoint(o, c, d);
        SiblingsDisjoint(o, d, c);
      }
      if Within(c', k) {
        WithinTrans(n, c', k);
        WithinOverlap(o, n, k);
      }
      assert k in m1 && m1[k] == m[k];
      assert MovedTo(m1, r, k, RenamedChildId(n, d) + k[|d|..]);
    }
  }

  /** Where `handleRename` puts every node below the old path, for a new
      path apart from the old one under which nothing is stored yet, when
      every node below the old path is listed by its parent: each key `k`
      at or below `o` is gone, and `n + k[|o|..]` holds its re-keyed
      copy. */
  lemma RenameMovesDescendants(o: string, n: string, nodes: NodesById, skipUpdateParent: bool)
    requires o != "" && Apart(o, n)
    requires ParentLinked(nodes) && NoDuplicateRefs(nodes) && FreeBelow(nodes, n)
    requires Connected(nodes, o)
    requires Rename(o, n, nodes, skipUpdateParent).Ok?
    ensures MovedBelow(nodes, Rename(o, n, nodes, skipUpdateParent).value.0, o, n)
  {
    RenameMovesBelowSkip(o, n, nodes);
    if !skipUpdateParent {
      var v := Rename(o, n, nodes, true).value.0;
      var r := Rename(o, n, nodes, false).value.0;
      var p := ParentId(o);
      RenameThenRelink(o, n, nodes);
      RenameMovesSkip(o, n, nodes);
      if Within(n, p) {
        RelinkBelowNoop(p, o, n, v);
      } else {
        forall k | k in nodes && Within(o, k) ensures MovedTo(nodes, r, k, n + k[|o|..]) {
          assert MovedTo(nodes, v, k, n + k[|o|..]);
          WithinAppend(o, n, k);
        }
      }
    }
  }

  /** Replacing the first `x` by a `y` the list does not hold keeps a list
      without repeats free of repeats, and leaves no `x` behind. */
  lemma {:induction false} ReplaceFirstDistinct(s: seq<string>, x: string, y: string)
    requires Distinct(s) && y !in s && x != y
    ensures Distinct(ReplaceFirst(s, x, y)) && x !in ReplaceFirst(s, x, y)
    ensures forall z :: z in ReplaceFirst(s, x, y) ==> z in s || z == y
  {
    if s != [] {
      assert Distinct(s[1..]) by {
        forall i, j | 0 <= i < j < |s[1..]| ensures s[1..][i] != s[1..][j] {
          assert s[1..][i] == s[i + 1] && s[1..][j] == s[j + 1];
        }
      }
      assert s[0] !in s[1..] by {
        forall j | 0 <= j < |s[1..]| ensures s[1..][j] != s[0] {
          assert s[1..][j] == s[j + 1];
        }
      }
      if s[0] != x {
        ReplaceFirstDistinct(s[1..], x, y);
        var t := ReplaceFirst(s[1..], x, y);
        assert ReplaceFirst(s, x, y) == [s[0]] + t;
        forall i, j | 0 <= i < j < |[s[0]] + t| ensures ([s[0]] + t)[i] != ([s[0]] + t)[j] {
          if i == 0 {
            assert ([s[0]] + t)[j] == t[j - 1] && t[j - 1] in t;
          }
        }
      } else {
        forall i, j | 0 <= i < j < |[y] + s[1..]| ensures ([y] + s[1..])[i] != ([y] + s[1..])[j] {
          if i == 0 {
            assert ([y] + s[1..])[j] == s[j];
          } else {
            assert ([y] + s[1..])[i] == s[i] && ([y] + s[1..])[j] == s[j];
          }
        }
      }
    }
  }

  /** What a rename without the parent step leaves behind: every reference
      resolves except references to the old path, which only the old parent
      holds; ids match keys; and only nodes below the new path can list it. */
  lemma SkipLeavesOnePending(o: string, n: string, nodes: NodesById, v: NodesById)
    requires o != "" && Apart(o, n) && WellFormed(nodes) && FreeBelow(nodes, n)
    requires KeptOutside(nodes, v, o, n) && SoundBelow(v, n) && RemovedWithParent(nodes, v, o)
    ensures NoDanglingExcept(v, {o}) && IdsMatchKeys(v)
    ensures forall k :: k in v && v[k].Dir? && o in v[k].items ==> k == ParentId(o)
    ensures forall k :: k in v && v[k].Dir? && !Within(n, k) ==> n !in v[k].items
  {
    assert Within(n, n) && Within(o, o);
    forall k, c | k in v && v[k].Dir? && c in v[k].items ensures c in v || c in {o} {
      if !Within(n, k) {
        assert k in nodes && v[k] == nodes[k];
        assert c in nodes && ParentId(c) == k;
      }
    }
    forall k | k in v ensures v[k].id == k {
      if !Within(n, k) {
        assert k in nodes && v[k] == nodes[k];
      }
    }
    forall k | k in v && v[k].Dir? && o in v[k].items ensures k == ParentId(o) {
      if !Within(n, k) {
        assert v[k] == nodes[k];
      }
    }
    forall k | k in v && v[k].Dir? && !Within(n, k) ensures n !in v[k].items {
      assert v[k] == nodes[k];
    }
  }

  /** The parent step, applied to what `SkipLeavesOnePending` describes,
      resolves the one pending reference and keeps ids and lists sound. */
  lemma RelinkResolves(o: string, n: string, v: NodesById)
    requires !Within(n, o) && n in v
    requires NoDanglingExcept(v, {o}) && IdsMatchKeys(v) && NoDuplicateRefs(v) && SoundBelow(v, n)
    requires forall k :: k in v && v[k].Dir? && o in v[k].items ==> k == ParentId(o)
    requires forall k :: k in v && v[k].Dir? && !Within(n, k) ==> n !in v[k].items
    requires ReplaceInParent(ParentId(o), o, n, v).Ok?
    ensures var r := ReplaceInParent(ParentId(o), o, n, v).value;
            NoDangling(r) && IdsMatchKeys(r) && NoDuplicateRefs(r)
  {
    var p := ParentId(o);
    ReplaceInParentFacts(p, o, n, v);
    if Within(n, p) {
      RelinkBelowNoop(p, o, n, v);
      assert v[p].Dir? ==> o !in v[p].items by {
        assert Within(n, p);
      }
      NothingPending(p, o, v);
    } else if v[p].File? {
      NothingPending(p, o, v);
    } else {
      RelinkDir(p, o, n, v);
    }
  }

  /** When the old parent `p` holds no reference to `o` either, nothing is
      pending. */
  lemma NothingPending(p: string, o: string, v: NodesById)
    requires NoDanglingExcept(v, {o})
    requires forall k :: k in v && v[k].Dir? && o in v[k].items ==> k == p
    requires p in v && (v[p].Dir? ==> o !in v[p].items)
    ensures NoDangling(v)
  {
    forall k, c | k in v && v[k].Dir? && c in v[k].items ensures c in v {
      if c == o {
        assert false;
      }
    }
  }

  /** The parent step on a directory parent `p` outside the new path. */
  lemma RelinkDir(p: string, o: string, n: string, v: NodesById)
    requires !Within(n, o) && n in v
    requires NoDanglingExcept(v, {o}) && IdsMatchKeys(v) && NoDuplicateRefs(v)
    requires forall k :: k in v && v[k].Dir? && o in v[k].items ==> k == p
    requires p in v && v[p].Dir? && n !in v[p].items
    ensures var r := v[p := v[p].(items := ReplaceFirst(v[p].items, o, n))];
            NoDangling(r) && IdsMatchKeys(r) && NoDuplicateRefs(r)
  {
    var items := v[p].items;
    assert Within(n, n);
    ReplaceFirstDistinct(items, o, n);
    var r := v[p := v[p].(items := ReplaceFirst(items, o, n))];
    forall k, c | k in r && r[k].Dir? && c in r[k].items ensures c in r {
      if k != p {
        assert r[k] == v[k];
        if c == o {
          assert false;
        }
      }
    }
    forall k | k in r && r[k].Dir? ensures Distinct(r[k].items) {
      if k != p {
        assert r[k] == v[k];
      }
    }
  }

  /** `handleRename` keeps every reference resolvable, every node under its
      own id and every list free of repeats, when the new path is apart from
      the old one and nothing is stored at or below it yet. A rename within
      the same folder keeps the repository well formed. */
  lemma RenamePreservesWellFormed(o: string, n: string, nodes: NodesById)
    requires o != "" && Apart(o, n)
    requires WellFormed(nodes) && FreeBelow(nodes, n)
    requires Rename(o, n, nodes, false).Ok?
    ensures var r := Rename(o, n, nodes, false).value.0;
            NoDangling(r) && IdsMatchKeys(r) && NoDuplicateRefs(r)
    ensures ParentId(n) == ParentId(o) ==> WellFormed(Rename(o, n, nodes, false).value.0)
  {
    RenameThenRelink(o, n, nodes);
    var v := Rename(o, n, nodes, true).value.0;
    RenameMovesSkip(o, n, nodes);
    RenameFrameSkip(o, n, nodes);
    RenameShape(o, n, nodes, true);
    SkipLeavesOnePending(o, n, nodes, v);
    RelinkResolves(o, n, v);
    if ParentId(n) == ParentId(o) {
      RenameKeepsOthers(o, n, nodes, false);
    }
  }

  /** The repository of `RenameIntoOwnSubfolder`: a top-level folder `a`
      listing a file `a/f` and a folder `a/d`, which lists a file `a/d/f`. */
  function NestedFolder(a: string, d: string, f: string): NodesById
  {
    var af := a + [Sep] + f;
    var ad := a + [Sep] + d;
    var adf := ad + [Sep] + f;
    map["" := Dir("", "", [a], true),
        a := Dir(a, a, [af, ad], true),
        af := File(af, f, af),
        ad := Dir(ad, d, [adf], true),
        adf := File(adf, f, adf)]
  }

  /** The ids of `NestedFolder` are five different ids, each listed by its
      parent. */
  lemma NestedFolderIds(a: string, d: string, f: string)
    requires a != "" && Sep !in a && Sep !in d && Sep !in f && d != f
    ensures var af := a + [Sep] + f;
            var ad := a + [Sep] + d;
            var adf := ad + [Sep] + f;
            && ParentId(a) == "" && ParentId(af) == a && ParentId(ad) == a && ParentId(adf) == ad
            && LastSegment(ad) == d && af != ad
            && |a| < |af| && |a| < |ad| && |ad| < |adf| && |af| < |adf|
  {
    var af := a + [Sep] + f;
    var ad := a + [Sep] + d;
    ParentOfJoined(a, f);
    ParentOfJoined(a, d);
    ParentOfJoined(ad, f);
    assert af != ad by {
      assert af[|a| + 1..] == f && ad[|a| + 1..] == d;
    }
  }

  lemma NestedFolderWellFormed(a: string, d: string, f: string)
    requires a != "" && Sep !in a && Sep !in d && Sep !in f && d != f
    ensures WellFormed(NestedFolder(a, d, f))
  {
    NestedFolderIds(a, d, f);
    NestedFolderLinked(a, d, f);
    var nodes := NestedFolder(a, d, f);
    assert IdsMatchKeys(nodes);
    assert NoDuplicateRefs(nodes);
  }

  lemma NestedFolderLinked(a: string, d: string, f: string)
    requires a != "" && Sep !in a && Sep !in d && Sep !in f && d != f
    ensures NoDangling(NestedFolder(a, d, f)) && ParentLinked(NestedFolder(a, d, f))
  {
    NestedFolderIds(a, d, f);
  }

  /** A file child is deleted and written back as a file at its new id. */
  lemma FileChildStep(c: string, n: string, m: NodesById)
    requires c in m && m[c].File?
    ensures var c' := RenamedChildId(n, c);
            RenameChild(c, n, m) == Ok((m - {c})[c' := File(c', LastSegment(c), c')])
  {
  }

  /** A loop over two children that both succeed. */
  lemma TwoChildrenStep(x: string, y: string, n: string, m: NodesById, m1: NodesById, m2: NodesById)
    requires RenameChild(x, n, m) == Ok(m1) && RenameChild(y, n, m1) == Ok(m2)
    ensures RenameChildren([x, y], n, m) == Ok((m2, [RenamedChildId(n, x), RenamedChildId(n, y)]))
  {
    assert [x, y][1..] == [y];
    OneChildStep(y, n, m1, m2);
    RenameChildrenStep([x, y], n, m);
    assert [RenamedChildId(n, x)] + [RenamedChildId(n, y)] == [RenamedChildId(n, x), RenamedChildId(n, y)];
  }

  /** A loop over one child that succeeds. */
  lemma OneChildStep(x: string, n: string, m: NodesById, m1: NodesById)
    requires RenameChild(x, n, m) == Ok(m1)
    ensures RenameChildren([x], n, m) == Ok((m1, [RenamedChildId(n, x)]))
  {
    assert [x][1..] == [];
    RenameChildrenStep([x], n, m);
    assert RenameChildren([], n, m1) == Ok((m1, []));
    assert [RenamedChildId(n, x)] + [] == [RenamedChildId(n, x)];
  }

  /** The inner step of `RenameIntoOwnSubfolder`: the folder `ad` moves to
      `add`, and its file `adf` to `addf`. */
  lemma InnerMove(m1: NodesById, ad: string, adf: string, add: string, addf: string, d: string, f: string)
    requires ad in m1 && m1[ad] == Dir(ad, d, [adf], true)
    requires adf in m1 && m1[adf] == File(adf, f, adf) && adf != ad
    requires RenamedChildId(add, adf) == addf && LastSegment(adf) == f && LastSegment(add) == d
    ensures var inner := Dir(add, d, [addf], true);
            Rename(ad, add, m1, true) == Ok((((m1 - {ad}) - {adf})[addf := File(addf, f, addf)][add := inner], inner))
  {
    var i0 := m1 - {ad};
    var i1 := (i0 - {adf})[addf := File(addf, f, addf)];
    FileChildStep(adf, add, i0);
    OneChildStep(adf, add, i0, i1);
    RenameStep(ad, add, m1);
  }

  /** The entries of `NestedFolder`, one lookup each. */
  lemma NestedFolderEntries(a: string, d: string, f: string)
    requires a != "" && Sep !in a && Sep !in d && Sep !in f && d != f
    ensures var af := a + [Sep] + f;
            var ad := a + [Sep] + d;
            var adf := ad + [Sep] + f;
            var nodes := NestedFolder(a, d, f);
            && "" in nodes && nodes[""] == Dir("", "", [a], true)
            && a in nodes && nodes[a] == Dir(a, a, [af, ad], true)
            && af in nodes && nodes[af] == File(af, f, af)
            && ad in nodes && nodes[ad] == Dir(ad, d, [adf], true)
  {
    NestedFolderIds(a, d, f);
  }

  /** The children loop of `RenameIntoOwnSubfolder`: the file `af` moves
      onto `adf`, then the folder `ad` moves to `add`, taking `adf` with it. */
  lemma OuterLoop(m: NodesById, af: string, ad: string, adf: string, add: string, addf: string, d: string, f: string)
    requires af in m && m[af] == File(af, f, af)
    requires ad in m && m[ad] == Dir(ad, d, [adf], true)
    requires af != ad && adf != ad
    requires RenamedChildId(ad, af) == adf && RenamedChildId(ad, ad) == add && RenamedChildId(add, adf) == addf
    requires LastSegment(af) == f && LastSegment(adf) == f && LastSegment(add) == d
    ensures var m1 := (m - {af})[adf := File(adf, f, adf)];
            var m3 := ((m1 - {ad}) - {adf})[addf := File(addf, f, addf)][add := Dir(add, d, [addf], true)];
            RenameChildren([af, ad], ad, m) == Ok((m3, [adf, add]))
  {
    var m1 := (m - {af})[adf := File(adf, f, adf)];
    var m3 := ((m1 - {ad}) - {adf})[addf := File(addf, f, addf)][add := Dir(add, d, [addf], true)];
    FileChildStep(af, ad, m);
    InnerMove(m1, ad, adf, add, addf, d, f);
    TwoChildrenStep(af, ad, ad, m, m1, m3);
  }

  /** The same loop leaves the root entry `""` alone and drops `adf`. */
  lemma OuterChildren(m: NodesById, af: string, ad: string, adf: string, add: string, addf: string, d: string, f: string)
    requires af in m && m[af] == File(af, f, af)
    requires ad in m && m[ad] == Dir(ad, d, [adf], true) && "" in m
    requires af != ad && adf != ad && adf != add && adf != addf
    requires "" != af && "" != ad && "" != adf && "" != add && "" != addf
    requires RenamedChildId(ad, af) == adf && RenamedChildId(ad, ad) == add && RenamedChildId(add, adf) == addf
    requires LastSegment(af) == f && LastSegment(adf) == f && LastSegment(add) == d
    ensures var r := RenameChildren([af, ad], ad, m);
            && r.Ok? && r.value.1 == [adf, add] && adf !in r.value.0
            && "" in r.value.0 && r.value.0[""] == m[""]
  {
    OuterLoop(m, af, ad, adf, add, addf, d, f);
    var m1 := (m - {af})[adf := File(adf, f, adf)];
    assert "" in m1 && m1[""] == m[""];
    var m2 := (m1 - {ad}) - {adf};
    assert "" in m2 && m2[""] == m[""] && adf !in m2;
    var m3 := m2[addf := File(addf, f, addf)][add := Dir(add, d, [addf], true)];
    assert "" in m3 && m3[""] == m[""] && adf !in m3;
  }

  /** The steps of `RenameIntoOwnSubfolder`, over ids whose relations are
      given. */
  lemma SubfolderTrace(nodes: NodesById, a: string, af: string, ad: string, adf: string,
                       add: string, addf: string, d: string, f: string)
    requires "" in nodes && nodes[""] == Dir("", "", [a], true)
    requires a in nodes && nodes[a] == Dir(a, a, [af, ad], true)
    requires af in nodes && nodes[af] == File(af, f, af)
    requires ad in nodes && nodes[ad] == Dir(ad, d, [adf], true)
    requires a != "" && a != af && a != ad && a != adf
    requires af != ad && adf != ad && adf != add && adf != addf
    requires "" != af && "" != ad && "" != adf && "" != add && "" != addf
    requires RenamedChildId(ad, af) == adf && RenamedChildId(ad, ad) == add && RenamedChildId(add, adf) == addf
    requires LastSegment(af) == f && LastSegment(adf) == f && LastSegment(ad) == d && LastSegment(add) == d
    requires ParentId(a) == ""
    ensures Rename(a, ad, nodes, false).Ok?
    ensures var r := Rename(a, ad, nodes, false).value.0;
            ad in r && r[ad] == Dir(ad, d, [adf, add], true) && adf !in r
  {
    var m := nodes - {a};
    OuterChildren(m, af, ad, adf, add, addf, d, f);
    RenameStep(a, ad, nodes);
    var v := Rename(a, ad, nodes, true).value.0;
    assert "" in v && v[""] == Dir("", "", [a], true) && adf !in v;
    assert ad in v && v[ad] == Dir(ad, d, [adf, add], true);
    RenameThenRelink(a, ad, nodes);
    ReplaceInParentFacts("", a, ad, v);
  }

  /** Why the new path must be apart from the old one. Moving `a` into its
      own subfolder `a/d` first writes the file child to `a/d/f`; the rename
      of the folder child `a/d` then deletes `a/d/f` again, while the new
      `a/d` still lists it. The start is well formed; the result holds a
      reference that does not resolve. */
  lemma RenameIntoOwnSubfolder(a: string, d: string, f: string)
    requires a != "" && Sep !in a && Sep !in d && Sep !in f && d != f
    ensures WellFormed(NestedFolder(a, d, f))
    ensures Rename(a, a + [Sep] + d, NestedFolder(a, d, f), false).Ok?
    ensures !NoDangling(Rename(a, a + [Sep] + d, NestedFolder(a, d, f), false).value.0)
  {
    var af := a + [Sep] + f;
    var ad := a + [Sep] + d;
    var adf := ad + [Sep] + f;
    var add := ad + [Sep] + d;
    var addf := add + [Sep] + f;
    NestedFolderWellFormed(a, d, f);
    NestedFolderIds(a, d, f);
    NestedFolderEntries(a, d, f);
    ParentOfJoined(a, f);
    ParentOfJoined(ad, f);
    JoinPairInverse(ad, f);
    JoinPairInverse(ad, d);
    JoinPairInverse(add, f);
    assert adf != add by {
      assert adf[|ad| + 1..] == f && add[|ad| + 1..] == d;
    }
    var nodes := NestedFolder(a, d, f);
    SubfolderTrace(nodes, a, af, ad, adf, add, addf, d, f);
    var r := Rename(a, ad, nodes, false).value.0;
    assert ad in r && r[ad].Dir? && adf in r[ad].items && adf !in r;
  }
}

=== FILE: types.dfy ===
/** The node repository's data model. */
module Types {

  /** A tree node: exactly one of a file or a directory. Both carry the full
      path as `id` and the last path segment as `name`. A directory refers to
      its children only by id, in display order; the children themselves live
      in the repository. */
  datatype Node =
    | File(id: string, name: string, link: string)
    | Dir(id: string, name: string, items: seq<string>, expanded: bool)

  /** The repository: every node, keyed by its path. */
  type NodesById = map<string, Node>

  /** Several repositories, each under its own key. */
  type AppData = map<string, NodesById>
}

=== FILE: update_properties.dfy ===
/** What `updateNodes` does to a repository: page registration, the
    ordering rule for a new reference, merging a listing into an existing
    directory, the references it leaves resolvable, and that deleting a
    freshly inserted document restores the repository. */
module UpdateProperties {
  import opened Wrappers
  import opened Types
  import opened Paths
  import opened Invariants
  import opened Utils
  import opened Ancestors
  import opened DeleteProperties

  /** The paths a listing registers. */
  function PagePaths(pages: seq<Page>): set<string>
  {
    set i | 0 <= i < |pages| :: pages[i].path
  }

  /** `pages[i]` is the last page listed under its path. */
  predicate LastUnder(pages: seq<Page>, i: nat)
    requires i < |pages|
  {
    forall j :: i < j < |pages| ==> pages[j].path != pages[i].path
  }

  // ---------------------------------------------------------------------
  // Registering the pages of a listing

  /** The paths of a listing are its first page's path and the paths of the
      rest. */
  lemma PagePathsCons(pages: seq<Page>)
    requires pages != []
    ensures PagePaths(pages) == {pages[0].path} + PagePaths(pages[1..])
  {
    var rest := pages[1..];
    forall k | k in PagePaths(pages) ensures k in {pages[0].path} + PagePaths(rest) {
      var i :| 0 <= i < |pages| && pages[i].path == k;
      if i > 0 {
        assert rest[i - 1].path == k;
      }
    }
    forall k | k in PagePaths(rest) ensures k in PagePaths(pages) {
      var i :| 0 <= i < |rest| && rest[i].path == k;
      assert pages[i + 1].path == k;
    }
  }

  /** Registration adds exactly the listed paths, stores under each the file
      node of the last page listed there, and keeps every other node. */
  lemma {:induction false} RegisterPagesFacts(pages: seq<Page>, m: NodesById)
    ensures RegisterPages(pages, m).Keys == m.Keys + PagePaths(pages)
    ensures forall k :: k in m && k !in PagePaths(pages) ==> RegisterPages(pages, m)[k] == m[k]
    ensures forall k :: k in PagePaths(pages) ==>
              RegisterPages(pages, m)[k].File? && RegisterPages(pages, m)[k].id == k && RegisterPages(pages, m)[k].link == k
    ensures forall i :: 0 <= i < |pages| && LastUnder(pages, i) ==> RegisterPages(pages, m)[pages[i].path] == PageNode(pages[i])
  {
    if pages != [] {
      var rest := pages[1..];
      var m' := m[pages[0].path := PageNode(pages[0])];
      RegisterPagesFacts(rest, m');
      PagePathsCons(pages);
      forall i | 0 <= i < |pages| && LastUnder(pages, i)
        ensures RegisterPages(pages, m)[pages[i].path] == PageNode(pages[i])
      {
        if i == 0 {
          forall j | 0 <= j < |rest| ensures rest[j].path != pages[0].path {
            assert rest[j] == pages[j + 1];
          }
        } else {
          assert rest[i - 1] == pages[i];
          assert LastUnder(rest, i - 1) by {
            forall j | i - 1 < j < |rest| ensures rest[j].path != rest[i - 1].path {
              assert rest[j] == pages[j + 1];
            }
          }
        }
      }
    }
  }

  // ---------------------------------------------------------------------
  // A new document or directory, once its ancestors exist

  /** A new document is spliced into its parent's `items` right before the
      first entry that is a directory, or last when there is none; the
      entries before it all resolve to files. Only the parent and the new
      key change. The call fails exactly when an entry before the first
      directory does not resolve, naming the first such entry. */
  lemma InsertDocumentOrdering(path: string, m: NodesById)
    requires NoLeadingSep(path) && AncestorsPresent(path, m)
    requires path !in m
    requires ParentId(path) in m && m[ParentId(path)].Dir?
    ensures var items := m[ParentId(path)].items;
            Update(path, None, m).Err? ==>
              exists j :: 0 <= j < |items| && items[j] !in m && FilesBetween(items, m, 0, j) &&
                          Update(path, None, m).failure == MissingNode(items[j])
    ensures var items := m[ParentId(path)].items;
            (forall j :: 0 <= j < |items| ==> items[j] in m) ==> Update(path, None, m).Ok?
    ensures var p := ParentId(path);
            var items := m[p].items;
            Update(path, None, m).Ok? ==>
              exists k :: 0 <= k <= |items| && FilesBetween(items, m, 0, k) &&
                          (k < |items| ==> items[k] in m && m[items[k]].Dir?) &&
                          Update(path, None, m).value
                          == m[p := m[p].(items := items[..k] + [path] + items[k..])][path := File(path, LastSegment(path), path)]
  {
    InsertDocumentFails(path, m);
    InsertDocumentSplice(path, m);
  }

  /** The failure half of `InsertDocumentOrdering`. */
  lemma InsertDocumentFails(path: string, m: NodesById)
    requires NoLeadingSep(path) && AncestorsPresent(path, m)
    requires path !in m
    requires ParentId(path) in m && m[ParentId(path)].Dir?
    ensures var items := m[ParentId(path)].items;
            Update(path, None, m).Err? ==>
              exists j :: 0 <= j < |items| && items[j] !in m && FilesBetween(items, m, 0, j) &&
                          Update(path, None, m).failure == MissingNode(items[j])
    ensures var items := m[ParentId(path)].items;
            (forall j :: 0 <= j < |items| ==> items[j] in m) ==> Update(path, None, m).Ok?
  {
    UpdateDocumentSteps(path, m);
    var p := ParentId(path);
    var f := FirstDirIndex(m[p].items, m);
    assert f.Err? ==> LinkIntoParent(path, p, false, m) == Err(f.failure);
  }

  /** The success half of `InsertDocumentOrdering`. */
  lemma InsertDocumentSplice(path: string, m: NodesById)
    requires NoLeadingSep(path) && AncestorsPresent(path, m)
    requires path !in m
    requires ParentId(path) in m && m[ParentId(path)].Dir?
    ensures var p := ParentId(path);
            var items := m[p].items;
            Update(path, None, m).Ok? ==>
              exists k :: 0 <= k <= |items| && FilesBetween(items, m, 0, k) &&
                          (k < |items| ==> items[k] in m && m[items[k]].Dir?) &&
                          Update(path, None, m).value
                          == m[p := m[p].(items := items[..k] + [path] + items[k..])][path := File(path, LastSegment(path), path)]
  {
    UpdateDocumentSteps(path, m);
    var p := ParentId(path);
    var items := m[p].items;
    if LinkIntoParent(path, p, false, m).Ok? {
      var k := LinkSplicePosition(path, p, m);
      var doc := File(path, LastSegment(path), path);
      assert Update(path, None, m).value == m[p := m[p].(items := items[..k] + [path] + items[k..])][path := doc];
    }
  }

  /** Where the splice puts a new document: in front of the first folder
      entry, with only files before it, or at the end. */
  lemma LinkSplicePosition(path: string, p: string, m: NodesById) returns (k: int)
    requires path !in m && p in m && m[p].Dir?
    requires LinkIntoParent(path, p, false, m).Ok?
    ensures var items := m[p].items;
            && 0 <= k <= |items| && FilesBetween(items, m, 0, k)
            && (k < |items| ==> items[k] in m && m[items[k]].Dir?)
            && LinkIntoParent(path, p, false, m).value == m[p := m[p].(items := items[..k] + [path] + items[k..])]
  {
    var items := m[p].items;
    var f := FirstDirIndex(items, m);
    k := if f.value < 0 then |items| else f.value;
    assert items + [path] == items[..|items|] + [path] + items[|items|..];
  }

  /** A new document under present ancestors: the walk changes nothing, the
      splice decides success, and the document is stored after it. */
  lemma UpdateDocumentSteps(path: string, m: NodesById)
    requires NoLeadingSep(path) && AncestorsPresent(path, m)
    requires path !in m
    ensures var link := LinkIntoParent(path, ParentId(path), false, m);
            && (link.Err? ==> Update(path, None, m) == Err(link.failure))
            && (link.Ok? ==> Update(path, None, m) == Ok(link.value[path := File(path, LastSegment(path), path)]))
  {
    EnsureAncestorsNoop(path, m);
  }

  /** A new directory is appended to its parent's `items`, stored with the
      listing's ids in order, and each listed page gets its file node. */
  lemma InsertDirectoryAppends(path: string, pages: seq<Page>, m: NodesById)
    requires NoLeadingSep(path) && AncestorsPresent(path, m)
    requires path !in m
    requires ParentId(path) in m && m[ParentId(path)].Dir?
    ensures Update(path, Some(pages), m).Ok?
    ensures var r := Update(path, Some(pages), m).value;
            r.Keys == m.Keys + {path} + PagePaths(pages)
    ensures var p := ParentId(path);
            var r := Update(path, Some(pages), m).value;
            p !in PagePaths(pages) ==> r[p] == m[p].(items := m[p].items + [path])
    ensures var r := Update(path, Some(pages), m).value;
            path !in PagePaths(pages) ==> r[path] == Dir(path, LastSegment(path), PageIds(pages), true)
  {
    var p := ParentId(path);
    var m3 := m[p := m[p].(items := m[p].items + [path])][path := Dir(path, LastSegment(path), PageIds(pages), true)];
    InsertDirectoryStore(path, pages, m);
    RegisterPagesFacts(pages, m3);
  }

  /** Inserting a new directory leaves every node other than the parent,
      the directory and the listed pages alone, and gives each listed page
      its file node. */
  lemma InsertDirectoryRegisters(path: string, pages: seq<Page>, m: NodesById)
    requires NoLeadingSep(path) && AncestorsPresent(path, m)
    requires path !in m
    requires ParentId(path) in m && m[ParentId(path)].Dir?
    ensures Update(path, Some(pages), m).Ok?
    ensures var r := Update(path, Some(pages), m).value;
            forall k :: k in m && k != ParentId(path) && k !in PagePaths(pages) ==> k in r && r[k] == m[k]
    ensures var r := Update(path, Some(pages), m).value;
            forall i :: 0 <= i < |pages| && LastUnder(pages, i) ==> pages[i].path in r && r[pages[i].path] == PageNode(pages[i])
  {
    var p := ParentId(path);
    var m3 := m[p := m[p].(items := m[p].items + [path])][path := Dir(path, LastSegment(path), PageIds(pages), true)];
    InsertDirectoryStore(path, pages, m);
    RegisterPagesFacts(pages, m3);
  }

  /** The new directory is linked and stored before the pages are
      registered. */
  lemma InsertDirectoryStore(path: string, pages: seq<Page>, m: NodesById)
    requires NoLeadingSep(path) && AncestorsPresent(path, m)
    requires path !in m
    requires ParentId(path) in m && m[ParentId(path)].Dir?
    ensures var p := ParentId(path);
            Update(path, Some(pages), m)
            == Ok(RegisterPages(pages, m[p := m[p].(items := m[p].items + [path])]
                                       [path := Dir(path, LastSegment(path), PageIds(pages), true)]))
  {
    var p := ParentId(path);
    var m2 := m[p := m[p].(items := m[p].items + [path])];
    EnsureAncestorsNoop(path, m);
    assert LinkIntoParent(path, p, true, m) == Ok(m2);
  }

  // ---------------------------------------------------------------------
  // A path that already exists

  /** A document notification for an existing path changes nothing. */
  lemma DocumentOverExisting(path: string, m: NodesById)
    requires NoLeadingSep(path) && AncestorsPresent(path, m)
    requires path in m
    ensures Update(path, None, m) == Ok(m)
  {
    EnsureAncestorsNoop(path, m);
  }

  /** A listing for an existing directory prepends the listing's ids, in
      listing order and without removing repeats, to its `items`, keeps its
      other fields, leaves the parent alone and registers the pages. */
  lemma MergeListing(path: string, pages: seq<Page>, m: NodesById)
    requires NoLeadingSep(path) && AncestorsPresent(path, m)
    requires path in m && m[path].Dir?
    ensures Update(path, Some(pages), m).Ok?
    ensures Update(path, Some(pages), m).value.Keys == m.Keys + PagePaths(pages)
    ensures path !in PagePaths(pages) ==>
              Update(path, Some(pages), m).value[path] == m[path].(items := PageIds(pages) + m[path].items)
    ensures forall k :: k in m && k != path && k !in PagePaths(pages) ==> Update(path, Some(pages), m).value[k] == m[k]
    ensures forall i :: 0 <= i < |pages| && LastUnder(pages, i) ==>
              Update(path, Some(pages), m).value[pages[i].path] == PageNode(pages[i])
  {
    MergeListingStore(path, pages, m);
    MergeListingRegisters(path, pages, m);
  }

  /** Registering the pages after the merge adds their paths and keeps the
      merged directory and every other node. */
  lemma MergeListingRegisters(path: string, pages: seq<Page>, m: NodesById)
    requires path in m && m[path].Dir?
    ensures var r := RegisterPages(pages, m[path := m[path].(items := PageIds(pages) + m[path].items)]);
            && r.Keys == m.Keys + PagePaths(pages)
            && (path !in PagePaths(pages) ==> r[path] == m[path].(items := PageIds(pages) + m[path].items))
            && (forall k :: k in m && k != path && k !in PagePaths(pages) ==> r[k] == m[k])
            && forall i :: 0 <= i < |pages| && LastUnder(pages, i) ==> r[pages[i].path] == PageNode(pages[i])
  {
    RegisterPagesFacts(pages, m[path := m[path].(items := PageIds(pages) + m[path].items)]);
  }

  /** The listing is merged into the directory before the pages are
      registered. */
  lemma MergeListingStore(path: string, pages: seq<Page>, m: NodesById)
    requires NoLeadingSep(path) && AncestorsPresent(path, m)
    requires path in m && m[path].Dir?
    ensures Update(path, Some(pages), m)
            == Ok(RegisterPages(pages, m[path := m[path].(items := PageIds(pages) + m[path].items)]))
  {
    EnsureAncestorsNoop(path, m);
    assert LinkIntoParent(path, ParentId(path), true, m) == Ok(m);
  }

  /** A listing for an existing file fails: the file has no `items`. */
  lemma ListingOverFile(path: string, pages: seq<Page>, m: NodesById)
    requires NoLeadingSep(path) && AncestorsPresent(path, m)
    requires path in m && m[path].File?
    ensures Update(path, Some(pages), m) == Err(NotADirectory(path))
  {
    EnsureAncestorsNoop(path, m);
    assert LinkIntoParent(path, ParentId(path), true, m) == Ok(m);
  }

  /** A new node under a present document fails: the document has no
      `items` to splice into. */
  lemma NewUnderFile(path: string, payload: Payload, m: NodesById)
    requires NoLeadingSep(path) && AncestorsPresent(path, m)
    requires path !in m && ParentId(path) in m && m[ParentId(path)].File?
    ensures Update(path, payload, m) == Err(NotADirectory(ParentId(path)))
  {
    EnsureAncestorsNoop(path, m);
  }

  // ---------------------------------------------------------------------
  // References stay resolvable

  lemma {:induction false} WalkKeepsResolved(segments: seq<string>, acc: string, m: NodesById)
    requires acc == "" || acc in m
    requires NoDangling(m)
    requires EnsureAncestors(segments, acc, m).Ok?
    ensures NoDangling(EnsureAncestors(segments, acc, m).value)
  {
    if segments != [] {
      var cur := segments[0];
      var id := ChildId(acc, cur);
      if id in m {
        WalkKeepsResolved(segments[1..], id, m);
      } else {
        var m1 := m[id := Dir(id, cur, [], true)];
        if acc == "" {
          WalkKeepsResolved(segments[1..], id, m1);
        } else {
          var m2 := m1[acc := m1[acc].(items := m1[acc].items + [id])];
          assert NoDangling(m2) by {
            forall k, c | k in m2 && m2[k].Dir? && c in m2[k].items ensures c in m2 {
              if k == acc {
                assert c in m[acc].items || c == id;
              } else if k != id {
                assert c in m[k].items;
              }
            }
          }
          WalkKeepsResolved(segments[1..], id, m2);
        }
      }
    }
  }

  /** After `updateNodes` every reference in the repository resolves again,
      provided it did before: the walk only links ancestors it creates, the
      new reference in the parent names the node then stored, and every id
      of a listing is registered as a page. */
  lemma UpdatePreservesNoDangling(path: string, payload: Payload, m: NodesById)
    requires NoDangling(m)
    requires Update(path, payload, m).Ok?
    ensures NoDangling(Update(path, payload, m).value)
  {
    var parts := Split(path);
    var m1 := EnsureAncestors(parts[..|parts| - 1], "", m).value;
    WalkKeepsResolved(parts[..|parts| - 1], "", m);
    var m2 := LinkIntoParent(path, ParentId(path), payload.Some?, m1).value;
    LinkLeavesOnePending(path, ParentId(path), payload.Some?, m1);
    var m3 := Store(path, Candidate(path, LastSegment(path), payload), m2).value;
    StoreLeavesPagesPending(path, payload, m2);
    if payload.Some? {
      RegisterPagesResolves(payload.value, m3);
    }
  }

  // ---------------------------------------------------------------------
  // Ids stay equal to keys

  /** The ancestor walk stores every folder it creates under its own id,
      and keeps the id of the ancestor it appends to. */
  lemma {:induction false} WalkKeepsIds(segments: seq<string>, acc: string, m: NodesById)
    requires acc == "" || acc in m
    requires IdsMatchKeys(m)
    requires EnsureAncestors(segments, acc, m).Ok?
    ensures IdsMatchKeys(EnsureAncestors(segments, acc, m).value)
  {
    if segments != [] {
      var cur := segments[0];
      var id := ChildId(acc, cur);
      if id in m {
        WalkKeepsIds(segments[1..], id, m);
      } else {
        var m1 := m[id := Dir(id, cur, [], true)];
        if acc == "" {
          WalkKeepsIds(segments[1..], id, m1);
        } else {
          WalkKeepsIds(segments[1..], id, m1[acc := m1[acc].(items := m1[acc].items + [id])]);
        }
      }
    }
  }

  /** Registration stores each page node under the page's path, which is
      its id. */
  lemma {:induction false} RegisterPagesKeepIds(pages: seq<Page>, m: NodesById)
    requires IdsMatchKeys(m)
    ensures IdsMatchKeys(RegisterPages(pages, m))
  {
    if pages != [] {
      RegisterPagesKeepIds(pages[1..], m[pages[0].path := PageNode(pages[0])]);
    }
  }

  /** The splice changes only the parent's list, never an id. */
  lemma LinkKeepsIds(path: string, parent: string, isDir: bool, m: NodesById)
    requires IdsMatchKeys(m)
    requires LinkIntoParent(path, parent, isDir, m).Ok?
    ensures IdsMatchKeys(LinkIntoParent(path, parent, isDir, m).value)
  {
    var r := LinkIntoParent(path, parent, isDir, m).value;
    forall k | k in r ensures r[k].id == k {
      if k == parent && path !in m && parent in m {
        assert r[k].id == r[k].(items := m[k].items).id;
      }
    }
  }

  /** Storing a candidate that carries `path` as its id keeps ids equal to
      keys, whether it is stored fresh or merged into a folder. */
  lemma StoreKeepsIds(path: string, candidate: Node, m: NodesById)
    requires IdsMatchKeys(m) && candidate.id == path
    requires Store(path, candidate, m).Ok?
    ensures IdsMatchKeys(Store(path, candidate, m).value)
  {
  }

  /** After `updateNodes` every node is still stored under its own id: the
      walk creates folders under their ids, the splice keeps the parent's
      id, the candidate carries `path` as its id, a merged folder keeps its
      id, and each page node carries the page's path. */
  lemma UpdatePreservesIds(path: string, payload: Payload, m: NodesById)
    requires IdsMatchKeys(m)
    requires Update(path, payload, m).Ok?
    ensures IdsMatchKeys(Update(path, payload, m).value)
  {
    var parts := Split(path);
    var m1 := EnsureAncestors(parts[..|parts| - 1], "", m).value;
    WalkKeepsIds(parts[..|parts| - 1], "", m);
    var m2 := LinkIntoParent(path, ParentId(path), payload.Some?, m1).value;
    LinkKeepsIds(path, ParentId(path), payload.Some?, m1);
    var m3 := Store(path, Candidate(path, LastSegment(path), payload), m2).value;
    StoreKeepsIds(path, Candidate(path, LastSegment(path), payload), m2);
    if payload.Some? {
      RegisterPagesKeepIds(payload.value, m3);
    }
  }

  /** Linking leaves at most the new id itself unresolved. */
  lemma LinkLeavesOnePending(path: string, p: string, isDir: bool, m1: NodesById)
    requires NoDangling(m1)
    requires LinkIntoParent(path, p, isDir, m1).Ok?
    ensures NoDanglingExcept(LinkIntoParent(path, p, isDir, m1).value, {path})
  {
    var m2 := LinkIntoParent(path, p, isDir, m1).value;
    forall k, c | k in m2 && m2[k].Dir? && c in m2[k].items ensures c in m2 || c == path {
      if k != p || path in m1 || p !in m1 {
        assert m2[k] == m1[k];
      } else {
        var items := m1[p].items;
        assert c in items || c == path by {
          var f := FirstDirIndex(items, m1);
          if !isDir && f.Ok? && f.value >= 0 {
            assert c in items[..f.value] + [path] + items[f.value..];
          }
        }
      }
    }
  }

  /** Storing the candidate resolves the new id and leaves at most the
      listed pages unresolved. */
  lemma StoreLeavesPagesPending(path: string, payload: Payload, m2: NodesById)
    requires NoDanglingExcept(m2, {path})
    requires Store(path, Candidate(path, LastSegment(path), payload), m2).Ok?
    ensures NoDanglingExcept(Store(path, Candidate(path, LastSegment(path), payload), m2).value,
                             if payload.Some? then PagePaths(payload.value) else {})
  {
    var m3 := Store(path, Candidate(path, LastSegment(path), payload), m2).value;
    if payload.Some? {
      var pages := payload.value;
      var pending := PagePaths(pages);
      PageIdsListed(pages);
      forall k, c | k in m3 && m3[k].Dir? && c in m3[k].items ensures c in m3 || c in pending {
        if k == path {
          assert c in PageIds(pages) || c in m2[path].items;
        } else {
          assert m3[k] == m2[k];
        }
      }
    } else {
      forall k, c | k in m3 && m3[k].Dir? && c in m3[k].items ensures c in m3 {
        assert m3[k] == m2[k];
      }
    }
  }

  /** Every id a listing contributes is the path of a listed page. */
  lemma PageIdsListed(pages: seq<Page>)
    ensures forall c :: c in PageIds(pages) ==> c in PagePaths(pages)
  {
    forall c | c in PageIds(pages) ensures c in PagePaths(pages) {
      var i :| 0 <= i < |pages| && PageIds(pages)[i] == c;
      assert pages[i].path == c;
    }
  }

  /** Registering the pages resolves every reference to them. */
  lemma RegisterPagesResolves(pages: seq<Page>, m3: NodesById)
    requires NoDanglingExcept(m3, PagePaths(pages))
    ensures NoDangling(RegisterPages(pages, m3))
  {
    RegisterPagesFacts(pages, m3);
    var r := RegisterPages(pages, m3);
    forall k, c | k in r && r[k].Dir? && c in r[k].items ensures c in r {
      assert k in m3 && k !in PagePaths(pages) && r[k] == m3[k];
    }
  }

  // ---------------------------------------------------------------------
  // Insert, then delete

  /** Removing the reference just spliced in gives the list back. */
  lemma {:induction false} RemoveFirstInserted(items: seq<string>, k: nat, x: string)
    requires k <= |items| && x !in items
    ensures RemoveFirst(items[..k] + [x] + items[k..], x) == items
  {
    if k > 0 {
      RemoveFirstInserted(items[1..], k - 1, x);
      assert items[..k] + [x] + items[k..] == [items[0]] + (items[1..][..k - 1] + [x] + items[1..][k - 1..]);
      assert items == [items[0]] + items[1..];
    } else {
      assert ([x] + items)[1..] == items;
    }
  }

  /** Inserting a document whose ancestors already exist and then deleting
      it restores the repository, as long as the parent keeps some other
      entry or is the origin (so it is not pruned). */
  lemma InsertThenDelete(path: string, m: NodesById, origin: string)
    requires NoLeadingSep(path) && AncestorsPresent(path, m)
    requires path !in m
    requires ParentId(path) in m && m[ParentId(path)].Dir?
    requires forall j :: 0 <= j < |m[ParentId(path)].items| ==> m[ParentId(path)].items[j] in m
    requires m[ParentId(path)].items != [] || ParentId(path) == origin
    ensures Update(path, None, m).Ok?
    ensures Delete(path, Update(path, None, m).value, origin) == Ok(m)
  {
    InsertDocumentOrdering(path, m);
    var p := ParentId(path);
    var items := m[p].items;
    var r := Update(path, None, m).value;
    var k :| 0 <= k <= |items| && FilesBetween(items, m, 0, k) &&
             (k < |items| ==> items[k] in m && m[items[k]].Dir?) &&
             r == m[p := m[p].(items := items[..k] + [path] + items[k..])][path := File(path, LastSegment(path), path)];
    assert path != "" by {
      assert Split("") == [""];
    }
    assert p != path;
    assert path !in items by {
      forall j | 0 <= j < |items| ensures items[j] != path {
        assert items[j] in m;
      }
    }
    var spliced := items[..k] + [path] + items[k..];
    assert Delete(path, r, origin) == Ok(m) by {
      RemoveFirstInserted(items, k, path);
      DeleteStep(path, r, origin);
      UndoInsert(m, p, path, spliced, File(path, LastSegment(path), path));
    }
  }

  /** Inserting a document `a/d` under a missing top-level directory `a`
      creates `a` as a placeholder that the origin `""` does not list;
      deleting the document prunes the placeholder again and gives the
      repository back, provided `""` is a directory that keeps some entry or
      is the origin itself. */
  lemma InsertPlaceholderThenDelete(a: string, d: string, m: NodesById, origin: string)
    requires a != "" && Sep !in a && Sep !in d
    requires a !in m && a + [Sep] + d !in m
    requires "" in m && m[""].Dir? && a !in m[""].items
    requires m[""].items != [] || origin == ""
    requires a != origin
    ensures Update(a + [Sep] + d, None, m).Ok?
    ensures Delete(a + [Sep] + d, Update(a + [Sep] + d, None, m).value, origin) == Ok(m)
  {
    InsertUnderPlaceholder(a, d, m);
    DeletePlaceholder(a, d, m, origin);
  }

  /** The delete half of `InsertPlaceholderThenDelete`: deleting the
      document prunes the placeholder and stops at `""`. */
  lemma DeletePlaceholder(a: string, d: string, m: NodesById, origin: string)
    requires a != "" && Sep !in a && Sep !in d
    requires a !in m && a + [Sep] + d !in m
    requires "" in m && m[""].Dir? && a !in m[""].items
    requires m[""].items != [] || origin == ""
    requires a != origin
    ensures var doc := a + [Sep] + d;
            Delete(doc, m[a := Dir(a, a, [doc], true)][doc := File(doc, d, doc)], origin) == Ok(m)
  {
    var doc := a + [Sep] + d;
    ParentOfJoined(a, d);
    assert doc != a;
    var m3 := m[a := Dir(a, a, [doc], true)][doc := File(doc, d, doc)];
    var m4 := (m3 - {doc})[a := Dir(a, a, [], true)];
    assert Delete(doc, m3, origin) == Delete(a, m4, origin) by {
      DeleteStep(doc, m3, origin);
      assert RemoveFirst([doc], doc) == [];
    }
    assert Delete(a, m4, origin) == Ok(m) by {
      DeleteStep(a, m4, origin);
      assert m4 - {a} == m;
      assert RemoveFirst(m[""].items, a) == m[""].items by {
        SpliceRemovesFirst(m[""].items, a);
      }
      assert m["" := m[""]] == m;
    }
  }

  /** The insert half of `InsertPlaceholderThenDelete`: the placeholder
      `a` is created listing only the new document. */
  lemma InsertUnderPlaceholder(a: string, d: string, m: NodesById)
    requires a != "" && Sep !in a && Sep !in d
    requires a !in m && a + [Sep] + d !in m
    ensures var doc := a + [Sep] + d;
            Update(doc, None, m) == Ok(m[a := Dir(a, a, [doc], true)][doc := File(doc, d, doc)])
  {
    var doc := a + [Sep] + d;
    ParentOfJoined(a, d);
    var parts := Split(doc);
    assert parts[..|parts| - 1] == [a] by {
      SplitWord(a);
      SplitAppend(a, d);
    }
    var m1 := m[a := Dir(a, a, [], true)];
    var m2 := m1[a := Dir(a, a, [doc], true)];
    assert EnsureAncestors([a], "", m) == Ok(m1);
    assert LinkIntoParent(doc, a, false, m1) == Ok(m2) by {
      assert FirstDirIndex([], m1) == Ok(-1);
      assert doc !in m1 && m1[a].items + [doc] == [doc];
    }
    assert m2 == m[a := Dir(a, a, [doc], true)];
  }

  /** Taking a fresh key out again and restoring the parent's listing gives
      back the repository it was added to. */
  lemma UndoInsert(m: NodesById, p: string, path: string, spliced: seq<string>, node: Node)
    requires p in m && m[p].Dir? && path !in m && p != path
    ensures var r := m[p := m[p].(items := spliced)][path := node];
            (r - {path})[p := (r - {path})[p].(items := m[p].items)] == m
  {
    var r := m[p := m[p].(items := spliced)][path := node];
    var m' := (r - {path})[p := (r - {path})[p].(items := m[p].items)];
    assert m'.Keys == m.Keys;
    forall k | k in m ensures m'[k] == m[k] {
      if k == p {
        assert (r - {path})[p] == m[p].(items := spliced);
      }
    }
  }

  /** Example: for any top-level directory `a` whose only entry
      is a subdirectory: a new document `a/c` goes in front of it. */
  lemma InsertDocumentBeforeSubdirectory(a: string, c: string, sub: string, m: NodesById)
    requires a != "" && Sep !in a && Sep !in c
    requires a in m && m[a].Dir? && m[a].items == [sub]
    requires sub in m && m[sub].Dir?
    requires a + [Sep] + c !in m
    ensures Update(a + [Sep] + c, None, m).Ok?
    ensures var r := Update(a + [Sep] + c, None, m).value;
            a in r && r[a].Dir? && r[a].items == [a + [Sep] + c, sub]
  {
    var path := a + [Sep] + c;
    ParentOfJoined(a, c);
    SplitWord(a);
    SplitAppend(a, c);
    assert Split(path) == [a, c];
    assert [a, c][..1] == [a];
    assert AncestorAt(path, 1) == a;
    InsertDocumentOrdering(path, m);
    var items := m[a].items;
    var k :| 0 <= k <= |items| && FilesBetween(items, m, 0, k) &&
             (k < |items| ==> items[k] in m && m[items[k]].Dir?) &&
             Update(path, None, m).value
             == m[a := m[a].(items := items[..k] + [path] + items[k..])][path := File(path, LastSegment(path), path)];
    assert items[0] == sub;
    assert k == 0;
  }
}

=== FILE: utils.dfy ===
/** The tree-synchronisation engine: delete with pruning, insert-or-update,
    and recursive rename over a path-keyed node repository.

    Each entry point is given twice: as a function on repository values,
    which says what the call computes and which the property modules reason
    about, and as a method of `Repository`, which performs the same steps
    in place, loop by loop, and is proved to agree with the function. */
module Utils {
  import opened Wrappers
  import opened Types
  import opened Paths

  /** A listed document of a directory payload: its path and display name. */
  datatype Page = Page(path: string, name: string)

  /** What a create or update notification carries: `None` for a document,
      `Some(pages)` for a directory together with its listing. */
  type Payload = Option<seq<Page>>

  // ---------------------------------------------------------------------
  // Array searches the engine performs with `findIndex`

  /** `items.findIndex(ref => ref.id === x)`: the first position of `x`, or -1. */
  function IndexOf(items: seq<string>, x: string): (i: int)
    ensures -1 <= i < |items|
    ensures 0 <= i ==> items[i] == x && x !in items[..i]
    ensures i < 0 ==> x !in items
  {
    if items == [] then -1
    else if items[0] == x then 0
    else
      var j := IndexOf(items[1..], x);
      assert j >= 0 ==> items[..j + 1] == [items[0]] + items[1..][..j];
      if j < 0 then -1 else j + 1
  }

  /** `items.map(id => nodes[id]).findIndex(node => node.isDir)`: the position
      of the first directory entry, or -1 when every entry is a file. The
      predicate dereferences each looked-up node in turn, so an id that does
      not resolve before the first directory entry throws. */
  function FirstDirIndex(items: seq<string>, m: NodesById): (r: Result<int>)
    ensures r.Ok? ==> -1 <= r.value < |items|
    ensures r.Ok? && r.value >= 0 ==> items[r.value] in m && m[items[r.value]].Dir?
    ensures r.Ok? ==> FilesBetween(items, m, 0, if r.value < 0 then |items| else r.value)
    ensures r.Err? ==> exists j :: 0 <= j < |items| && items[j] !in m &&
                        r.failure == MissingNode(items[j]) && FilesBetween(items, m, 0, j)
  {
    FirstDirFrom(items, m, 0)
  }

  /** Every entry of `items[lo..hi]` resolves to a file. */
  ghost predicate FilesBetween(items: seq<string>, m: NodesById, lo: int, hi: int)
    requires 0 <= lo <= hi <= |items|
  {
    forall j :: lo <= j < hi ==> items[j] in m && m[items[j]].File?
  }

  /** The search of `FirstDirIndex`, from position `k` on. */
  function FirstDirFrom(items: seq<string>, m: NodesById, k: nat): (r: Result<int>)
    requires k <= |items|
    ensures r.Ok? ==> r.value == -1 || k <= r.value < |items|
    ensures r.Ok? && r.value >= 0 ==> items[r.value] in m && m[items[r.value]].Dir?
    ensures r.Ok? ==> FilesBetween(items, m, k, if r.value < 0 then |items| else r.value)
    ensures r.Err? ==> exists j :: k <= j < |items| && items[j] !in m &&
                        r.failure == MissingNode(items[j]) && FilesBetween(items, m, k, j)
    decreases |items| - k
  {
    if k == |items| then Ok(-1)
    else if items[k] !in m then Err(MissingNode(items[k]))
    else if m[items[k]].Dir? then Ok(k)
    else FirstDirFrom(items, m, k + 1)
  }

  // ---------------------------------------------------------------------
  // deleteFromNodes

  /** Removes `path`, detaches its first reference from the parent's `items`,
      and prunes the parent in turn when that left it empty, unless the
      parent is `origin`. Throws when the parent is missing or is a file. */
  function Delete(path: string, nodes: NodesById, origin: string): (r: Result<NodesById>)
    ensures r.Ok? ==> r.value.Keys <= nodes.Keys - {path}
    ensures r.Ok? && origin in nodes && origin != path ==> origin in r.value
    decreases |path|
  {
    var parentId := ParentId(path);
    var m := nodes - {path};
    if parentId !in m then Err(MissingNode(parentId))
    else match m[parentId]
      case File(_, _, _) => Err(NotADirectory(parentId))
      case Dir(id, name, items, expanded) =>
        var idx := IndexOf(items, path);
        var m' := if idx >= 0 then m[parentId := Dir(id, name, items[..idx] + items[idx + 1..], expanded)] else m;
        if |m'[parentId].items| > 0 then Ok(m')
        else if parentId == origin then Ok(m')
        else Delete(parentId, m', origin)
  }

  // ---------------------------------------------------------------------
  // updateNodes

  /** The `reduce` over the strict ancestors' segments: each missing ancestor
      becomes an empty, expanded directory and, unless it is the first one
      (the accumulator is still falsy), is appended to the previous
      ancestor's `items`. */
  function EnsureAncestors(segments: seq<string>, acc: string, m: NodesById): (r: Result<NodesById>)
    requires acc == "" || acc in m
    ensures r.Ok? ==> m.Keys <= r.value.Keys
  {
    if segments == [] then Ok(m)
    else
      var cur := segments[0];
      var id := ChildId(acc, cur);
      if id in m then EnsureAncestors(segments[1..], id, m)
      else
        var m1 := m[id := Dir(id, cur, [], true)];
        if acc == "" then EnsureAncestors(segments[1..], id, m1)
        else match m1[acc]
          case File(_, _, _) => Err(NotADirectory(acc))
          case Dir(aid, aname, aitems, aexpanded) =>
            EnsureAncestors(segments[1..], id, m1[acc := Dir(aid, aname, aitems + [id], aexpanded)])
  }

  /** The ids a directory listing contributes, in listing order. */
  function PageIds(pages: seq<Page>): (ids: seq<string>)
    ensures |ids| == |pages|
    ensures forall i :: 0 <= i < |pages| ==> ids[i] == pages[i].path
  {
    if pages == [] then [] else [pages[0].path] + PageIds(pages[1..])
  }

  /** The file node registered for a listed page: the node a document
      notification for the page's path would build. */
  function PageNode(page: Page): (n: Node)
    ensures n == Candidate(page.path, page.name, None)
  {
    File(page.path, page.name, page.path)
  }

  /** The node built for `path` from the payload (`thisNode`). */
  function Candidate(path: string, name: string, payload: Payload): (n: Node)
    ensures n.id == path && n.name == name && (n.Dir? <==> payload.Some?)
    ensures n.File? ==> n.link == path
    ensures n.Dir? ==> n.expanded && |n.items| == |payload.value|
    ensures n.Dir? ==> forall i :: 0 <= i < |n.items| ==> n.items[i] == payload.value[i].path
  {
    match payload
    case None => File(path, name, path)
    case Some(pages) => Dir(path, name, PageIds(pages), true)
  }

  /** Splices a reference to a new `path` into its parent's `items`, when
      `path` is absent and the parent present: a file goes before the first
      directory entry (or last, when there is none), a directory last. */
  function LinkIntoParent(path: string, parent: string, isDir: bool, m: NodesById): (r: Result<NodesById>)
    ensures r.Err? ==> path !in m && parent in m && (m[parent].File? || !isDir)
    ensures path !in m && parent in m && m[parent].File? ==> r == Err(NotADirectory(parent))
    ensures r.Ok? ==> r.value.Keys == m.Keys
    ensures r.Ok? && (path in m || parent !in m) ==> r.value == m
    ensures r.Ok? && path !in m && parent in m ==>
              && m[parent].Dir? && r.value[parent].Dir?
              && r.value[parent].(items := m[parent].items) == m[parent]
              && multiset(r.value[parent].items) == multiset(m[parent].items) + multiset{path}
  {
    if path in m || parent !in m then Ok(m)
    else match m[parent]
      case File(_, _, _) => Err(NotADirectory(parent))
      case Dir(id, name, items, expanded) =>
        if isDir then Ok(m[parent := Dir(id, name, items + [path], expanded)])
        else
          var firstDirIdx :- FirstDirIndex(items, m);
          if firstDirIdx >= 0 then
            assert items == items[..firstDirIdx] + items[firstDirIdx..];
            Ok(m[parent := Dir(id, name, items[..firstDirIdx] + [path] + items[firstDirIdx..], expanded)])
          else
            Ok(m[parent := Dir(id, name, items + [path], expanded)])
  }

  /** Stores the candidate under `path`, or, when a node is already there and
      the candidate is a directory, prepends the candidate's references to
      the existing node's `items` (which throws when that node is a file). */
  function Store(path: string, candidate: Node, m: NodesById): (r: Result<NodesById>)
    ensures r.Err? <==> path in m && candidate.Dir? && m[path].File?
    ensures r.Ok? ==> r.value.Keys == m.Keys + {path}
    ensures path !in m ==> r.value[path] == candidate
    ensures r.Ok? && path in m && m[path].Dir? ==>
              r.value[path].Dir? && r.value[path].(items := m[path].items) == m[path]
  {
    if path !in m then Ok(m[path := candidate])
    else match candidate
      case File(_, _, _) => Ok(m)
      case Dir(_, _, listed, _) =>
        match m[path]
        case File(_, _, _) => Err(NotADirectory(path))
        case Dir(id, name, items, expanded) => Ok(m[path := Dir(id, name, listed + items, expanded)])
  }

  /** The `forEach` that registers a file node per listed page, in listing
      order, overwriting whatever was stored under the page's path. */
  function RegisterPages(pages: seq<Page>, m: NodesById): (r: NodesById)
    ensures m.Keys <= r.Keys
  {
    if pages == [] then m
    else RegisterPages(pages[1..], m[pages[0].path := PageNode(pages[0])])
  }

  /** `updateNodes`: creates the missing ancestors, links a new node into its
      parent, stores or merges the candidate, and registers listed pages. */
  function Update(path: string, payload: Payload, nodes: NodesById): (r: Result<NodesById>)
    ensures r.Ok? ==> nodes.Keys <= r.value.Keys && path in r.value
  {
    var parts := Split(path);
    var m1 :- EnsureAncestors(parts[..|parts| - 1], "", nodes);
    var candidate := Candidate(path, LastSegment(path), payload);
    var m2 :- LinkIntoParent(path, ParentId(path), payload.Some?, m1);
    var m3 :- Store(path, candidate, m2);
    if payload.Some? then Ok(RegisterPages(payload.value, m3)) else Ok(m3)
  }

  // ---------------------------------------------------------------------
  // handleRename

  lemma CardRemove(m: NodesById, k: string)
    requires k in m
    ensures |m - {k}| == |m| - 1
  {
    assert (m - {k}).Keys == m.Keys - {k};
  }

  lemma CardReplace(m: NodesById, k: string, k': string, v: Node)
    requires k in m
    ensures |(m - {k})[k' := v]| <= |m|
  {
    CardRemove(m, k);
    assert ((m - {k})[k' := v]).Keys == (m - {k}).Keys + {k'};
  }

  /** The re-keyed copy of a node: new id and name, `link` recomputed for a
      file, `items` replaced for a directory, every other field kept. */
  function Rekeyed(existing: Node, newPath: string, newItems: seq<string>): (r: Node)
    ensures existing.Dir? ==> r.Dir? && r.items == newItems
    ensures (existing.File? || (|newItems| == |existing.items|
              && forall i :: 0 <= i < |newItems| ==> newItems[i] == RenamedChildId(newPath, existing.items[i])))
            ==> RekeyedFrom(existing, r, newPath)
  {
    match existing
    case File(_, _, _) => File(newPath, LastSegment(newPath), newPath)
    case Dir(_, _, _, expanded) => Dir(newPath, LastSegment(newPath), newItems, expanded)
  }

  /** The id a child `c` of a renamed directory moves to:
      `[newPath, lastSegment(c)].join("/")`. */
  function RenamedChildId(newPath: string, c: string): (r: string)
    ensures |newPath| < |r| && r[..|newPath|] == newPath && r[|newPath|] == Sep
  {
    Join([newPath, LastSegment(c)])
  }

  /** `renamed` is `existing` moved to `newPath`: same kind, id and link set
      to `newPath`, name its last segment, `expanded` kept, and each child
      re-keyed under `newPath` with its own last segment, in the same order. */
  ghost predicate RekeyedFrom(existing: Node, renamed: Node, newPath: string)
  {
    && renamed.id == newPath
    && renamed.name == LastSegment(newPath)
    && (renamed.File? <==> existing.File?)
    && (renamed.File? ==> renamed.link == newPath)
    && (renamed.Dir? ==>
          && renamed.expanded == existing.expanded
          && |renamed.items| == |existing.items|
          && forall i :: 0 <= i < |existing.items| ==>
               renamed.items[i] == RenamedChildId(newPath, existing.items[i]))
  }

  /** Rewrites the reference to `oldPath` in the old parent's `items` to
      `newPath`, at the same position. Throws when the parent is absent. */
  function ReplaceInParent(parentId: string, oldPath: string, newPath: string, m: NodesById): (r: Result<NodesById>)
    ensures r.Err? <==> parentId !in m
    ensures r.Ok? ==> r.value.Keys == m.Keys && forall k :: k in m && k != parentId ==> r.value[k] == m[k]
    ensures r.Ok? && m[parentId].Dir? ==>
              && r.value[parentId].Dir?
              && r.value[parentId].(items := m[parentId].items) == m[parentId]
              && |r.value[parentId].items| == |m[parentId].items|
  {
    if parentId !in m then Err(MissingNode(parentId))
    else match m[parentId]
      case File(_, _, _) => Ok(m)
      case Dir(id, name, items, expanded) =>
        var idx := IndexOf(items, oldPath);
        if idx >= 0 then Ok(m[parentId := Dir(id, name, items[idx := newPath], expanded)]) else Ok(m)
  }

  /** `handleRename`: re-keys the node at `oldPath` (and its descendants) to
      `newPath`, then, unless `skipUpdateParent`, the old parent's reference.
      Yields the new repository and the re-keyed node. */
  function Rename(oldPath: string, newPath: string, nodes: NodesById, skipUpdateParent: bool): (r: Result<(NodesById, Node)>)
    ensures r.Ok? ==> |r.value.0| <= |nodes|
    decreases |nodes|, 0, 0
  {
    if oldPath !in nodes then Err(MissingNode(oldPath))
    else
      var existing := nodes[oldPath];
      var m := nodes - {oldPath};
      CardRemove(nodes, oldPath);
      var children :- if existing.Dir? then RenameChildren(existing.items, newPath, m) else Ok((m, []));
      var newNode := Rekeyed(existing, newPath, children.1);
      var m3 := children.0[newPath := newNode];
      assert |m3| <= |nodes| by {
        assert m3.Keys == children.0.Keys + {newPath};
      }
      var m4 :- if skipUpdateParent then Ok(m3) else ReplaceInParent(ParentId(oldPath), oldPath, newPath, m3);
      assert m4.Keys == m3.Keys;
      Ok((m4, newNode))
  }

  /** One step of the `forEach` over a renamed directory's children: a
      directory child is renamed recursively without touching its parent's
      list, a file child is deleted and re-created under its new id. */
  function RenameChild(oldItemPath: string, newPath: string, m: NodesById): (r: Result<NodesById>)
    ensures r.Ok? ==> |r.value| <= |m|
    decreases |m|, 1, 0
  {
    if oldItemPath !in m then Err(MissingNode(oldItemPath))
    else
      var itemName := LastSegment(oldItemPath);
      var newItemPath := Join([newPath, itemName]);
      if m[oldItemPath].Dir? then
        var renamed :- Rename(oldItemPath, newItemPath, m, true);
        Ok(renamed.0)
      else
        CardReplace(m, oldItemPath, newItemPath, File(newItemPath, itemName, newItemPath));
        Ok((m - {oldItemPath})[newItemPath := File(newItemPath, itemName, newItemPath)])
  }

  /** The whole `forEach`: yields the repository and the children's new ids,
      in the original order. */
  function RenameChildren(items: seq<string>, newPath: string, m: NodesById): (r: Result<(NodesById, seq<string>)>)
    ensures r.Ok? ==> |r.value.0| <= |m|
    decreases |m|, 2, |items|
  {
    if items == [] then Ok((m, []))
    else
      var m1 :- RenameChild(items[0], newPath, m);
      var rest :- RenameChildren(items[1..], newPath, m1);
      Ok((rest.0, [RenamedChildId(newPath, items[0])] + rest.1))
  }

  // ---------------------------------------------------------------------
  // The engine in place

  /** The result of a children loop that had already produced `done` before
      running the rest. */
  function AfterDone(done: seq<string>, r: Result<(NodesById, seq<string>)>): Result<(NodesById, seq<string>)>
  {
    match r
    case Err(f) => Err(f)
    case Ok(v) => Ok((v.0, done + v.1))
  }

  lemma AfterDoneTwice(a: seq<string>, b: seq<string>, r: Result<(NodesById, seq<string>)>)
    ensures AfterDone(a, AfterDone(b, r)) == AfterDone(a + b, r)
  {
    if r.Ok? {
      assert a + (b + r.value.1) == (a + b) + r.value.1;
    }
  }

  /** One unfolding of `RenameChildren`. */
  lemma RenameChildrenStep(items: seq<string>, newPath: string, m: NodesById)
    requires items != []
    ensures RenameChild(items[0], newPath, m).Err? ==>
              RenameChildren(items, newPath, m) == Err(RenameChild(items[0], newPath, m).failure)
    ensures RenameChild(items[0], newPath, m).Ok? ==>
              RenameChildren(items, newPath, m)
              == AfterDone([RenamedChildId(newPath, items[0])], RenameChildren(items[1..], newPath, RenameChild(items[0], newPath, m).value))
  {
  }

  /** The loop invariant of the children loop survives one more child. */
  lemma RenameChildrenAdvance(items: seq<string>, i: nat, newPath: string, m: NodesById,
                              done: seq<string>, before: NodesById, after: NodesById)
    requires i < |items|
    requires RenameChildren(items, newPath, m) == AfterDone(done, RenameChildren(items[i..], newPath, before))
    requires RenameChild(items[i], newPath, before) == Ok(after)
    ensures RenameChildren(items, newPath, m)
            == AfterDone(done + [RenamedChildId(newPath, items[i])], RenameChildren(items[i + 1..], newPath, after))
  {
    assert items[i..][0] == items[i] && items[i..][1..] == items[i + 1..];
    RenameChildrenStep(items[i..], newPath, before);
    AfterDoneTwice(done, [RenamedChildId(newPath, items[i])], RenameChildren(items[i + 1..], newPath, after));
  }

  /** The node record the three entry points receive and update in place. */
  class Repository {
    var nodes: NodesById

    constructor (initial: NodesById)
      ensures nodes == initial
    {
      nodes := initial;
    }

    /** `deleteFromNodes(path, nodes, origin)`. */
    method DeleteFromNodes(path: string, origin: string) returns (r: Result<NodesById>)
      modifies this
      ensures r == Delete(path, old(nodes), origin)
      ensures r.Ok? ==> nodes == r.value
      decreases |path|
    {
      var parentId := ParentId(path);
      nodes := nodes - {path};
      if parentId !in nodes {
        return Err(MissingNode(parentId));
      }
      if nodes[parentId].File? {
        return Err(NotADirectory(parentId));
      }
      var parentItems := nodes[parentId].items;
      var idx := IndexOf(parentItems, path);
      if idx >= 0 {
        nodes := nodes[parentId := nodes[parentId].(items := parentItems[..idx] + parentItems[idx + 1..])];
      }
      if |nodes[parentId].items| > 0 {
        return Ok(nodes);
      }
      if parentId == origin {
        return Ok(nodes);
      }
      r := DeleteFromNodes(parentId, origin);
    }

    /** `updateNodes(path, payload, nodes)`. */
    method UpdateNodes(path: string, payload: Payload) returns (r: Result<NodesById>)
      modifies this
      ensures r == Update(path, payload, old(nodes))
      ensures r.Ok? ==> nodes == r.value
    {
      var parts := Split(path);
      var name := parts[|parts| - 1];
      var isDir := payload.Some?;
      var parent := Join(parts[..|parts| - 1]);
      var thisNode := Candidate(path, name, payload);

      r := CreateAncestors(parts[..|parts| - 1]);
      if r.Err? {
        return;
      }
      r := LinkNewNode(path, parent, isDir);
      if r.Err? {
        return;
      }
      r := StoreNode(path, thisNode);
      if r.Err? {
        return;
      }
      if isDir {
        RegisterListedPages(payload.value);
      }
      return Ok(nodes);
    }

    /** The `reduce` over the parent segments that creates each missing
        ancestor and links it into the one above. */
    method CreateAncestors(segments: seq<string>) returns (r: Result<NodesById>)
      modifies this
      ensures r == EnsureAncestors(segments, "", old(nodes))
      ensures r.Ok? ==> nodes == r.value
    {
      var acc := "";
      var i := 0;
      while i < |segments|
        invariant 0 <= i <= |segments|
        invariant acc == "" || acc in nodes
        invariant EnsureAncestors(segments, "", old(nodes)) == EnsureAncestors(segments[i..], acc, nodes)
      {
        var cur := segments[i];
        assert segments[i..][0] == cur && segments[i..][1..] == segments[i + 1..];
        var id := ChildId(acc, cur);
        if id !in nodes {
          nodes := nodes[id := Dir(id, cur, [], true)];
          if acc != "" {
            if nodes[acc].File? {
              return Err(NotADirectory(acc));
            }
            nodes := nodes[acc := nodes[acc].(items := nodes[acc].items + [id])];
          }
        }
        acc := id;
        i := i + 1;
      }
      assert segments[i..] == [];
      return Ok(nodes);
    }

    /** The splice of a new node's id into its parent's `items`. */
    method LinkNewNode(path: string, parent: string, isDir: bool) returns (r: Result<NodesById>)
      modifies this
      ensures r == LinkIntoParent(path, parent, isDir, old(nodes))
      ensures r.Ok? ==> nodes == r.value
    {
      if path !in nodes && parent in nodes {
        if nodes[parent].File? {
          return Err(NotADirectory(parent));
        }
        var items := nodes[parent].items;
        if !isDir {
          var firstDirIdx := FirstDirIndex(items, nodes);
          if firstDirIdx.Err? {
            return Err(firstDirIdx.failure);
          }
          if firstDirIdx.value >= 0 {
            nodes := nodes[parent := nodes[parent].(items := items[..firstDirIdx.value] + [path] + items[firstDirIdx.value..])];
          } else {
            nodes := nodes[parent := nodes[parent].(items := items + [path])];
          }
        } else {
          nodes := nodes[parent := nodes[parent].(items := items + [path])];
        }
      }
      return Ok(nodes);
    }

    /** Stores the candidate, or merges a listing into an existing folder. */
    method StoreNode(path: string, thisNode: Node) returns (r: Result<NodesById>)
      modifies this
      ensures r == Store(path, thisNode, old(nodes))
      ensures r.Ok? ==> nodes == r.value
    {
      if path in nodes {
        if thisNode.Dir? {
          if nodes[path].File? {
            return Err(NotADirectory(path));
          }
          nodes := nodes[path := nodes[path].(items := thisNode.items + nodes[path].items)];
        }
      } else {
        nodes := nodes[path := thisNode];
      }
      return Ok(nodes);
    }

    /** The `forEach` that registers one file node per listed page. */
    method RegisterListedPages(pages: seq<Page>)
      modifies this
      ensures nodes == RegisterPages(pages, old(nodes))
    {
      var j := 0;
      while j < |pages|
        invariant 0 <= j <= |pages|
        invariant RegisterPages(pages, old(nodes)) == RegisterPages(pages[j..], nodes)
      {
        assert pages[j..][0] == pages[j] && pages[j..][1..] == pages[j + 1..];
        nodes := nodes[pages[j].path := PageNode(pages[j])];
        j := j + 1;
      }
      assert pages[j..] == [];
    }

    /** The tail of `handleRename` that rewrites the old parent's reference. */
    method ReplaceParentReference(parentId: string, oldPath: string, newPath: string) returns (r: Result<NodesById>)
      modifies this
      ensures r == ReplaceInParent(parentId, oldPath, newPath, old(nodes))
      ensures r.Ok? ==> nodes == r.value
    {
      if parentId in nodes && nodes[parentId].Dir? {
        var parentItems := nodes[parentId].items;
        var idxInParentItems := IndexOf(parentItems, oldPath);
        if idxInParentItems >= 0 {
          nodes := nodes[parentId := nodes[parentId].(items := parentItems[idxInParentItems := newPath])];
        }
      }
      if parentId !in nodes {
        return Err(MissingNode(parentId));
      }
      return Ok(nodes);
    }

    /** `handleRename(oldPath, newPath, nodes, skipUpdateParent)`. */
    method HandleRename(oldPath: string, newPath: string, skipUpdateParent: bool) returns (r: Result<(NodesById, Node)>)
      modifies this
      ensures r == Rename(oldPath, newPath, old(nodes), skipUpdateParent)
      ensures r.Ok? ==> nodes == r.value.0
      decreases |nodes|
    {
      var parentId := ParentId(oldPath);
      if oldPath !in nodes {
        return Err(MissingNode(oldPath));
      }
      var existingNode := nodes[oldPath];
      CardRemove(nodes, oldPath);
      nodes := nodes - {oldPath};

      var newItems: seq<string> := [];
      if existingNode.Dir? {
        var items := existingNode.items;
        ghost var m := nodes;
        var i := 0;
        assert items[i..] == items;
        ghost var whole := RenameChildren(items, newPath, m);
        assert whole.Ok? ==> newItems + whole.value.1 == whole.value.1;
        while i < |items|
          invariant 0 <= i <= |items|
          invariant |nodes| <= |m|
          invariant RenameChildren(items, newPath, m) == AfterDone(newItems, RenameChildren(items[i..], newPath, nodes))
        {
          var oldItemPath := items[i];
          ghost var before := nodes;
          assert items[i..][0] == oldItemPath && items[i..][1..] == items[i + 1..];
          RenameChildrenStep(items[i..], newPath, nodes);
          if oldItemPath !in nodes {
            return Err(MissingNode(oldItemPath));
          }
          var itemName := LastSegment(oldItemPath);
          var newItemPath := Join([newPath, itemName]);
          if nodes[oldItemPath].Dir? {
            var updated := HandleRename(oldItemPath, newItemPath, true);
            if updated.Err? {
              return Err(updated.failure);
            }
          } else {
            CardReplace(nodes, oldItemPath, newItemPath, File(newItemPath, itemName, newItemPath));
            nodes := (nodes - {oldItemPath})[newItemPath := File(newItemPath, itemName, newItemPath)];
          }
          assert RenameChild(oldItemPath, newPath, before) == Ok(nodes);
          assert newItemPath == RenamedChildId(newPath, oldItemPath);
          RenameChildrenAdvance(items, i, newPath, m, newItems, before, nodes);
          newItems := newItems + [newItemPath];
          i := i + 1;
          assert RenameChildren(items, newPath, m) == AfterDone(newItems, RenameChildren(items[i..], newPath, nodes));
        }
        assert items[i..] == [];
        assert newItems + [] == newItems;
      }

      var newNode := Rekeyed(existingNode, newPath, newItems);
      nodes := nodes[newPath := newNode];

      if !skipUpdateParent {
        var updatedParent := ReplaceParentReference(parentId, oldPath, newPath);
        if updatedParent.Err? {
          return Err(updatedParent.failure);
        }
      }
      return Ok((nodes, newNode));
    }

  }
}

=== FILE: wrappers.dfy ===
/** Failure-compatible result types shared by the synchronisation engine. */
module Wrappers {

  datatype Option<+T> = None | Some(value: T)

  /** The two ways a call into the engine throws in JavaScript: a lookup that
      yields `undefined` and is then dereferenced, or a file node used where a
      directory's `items` list is read or written. */
  datatype Failure =
    | MissingNode(id: string)
    | NotADirectory(id: string)

  /** Either the value the engine returns, or the failure it throws. */
  datatype Result<+T> = Ok(value: T) | Err(failure: Failure) {

    predicate IsFailure() {
      Err?
    }

    function PropagateFailure<U>(): Result<U>
      requires Err?
    {
      Err(failure)
    }

    function Extract(): T
      requires Ok?
    {
      value
    }
  }
}
